=== FILE: README.md ===
# Cardano.NET wallet client — a Dafny model

This project models the core of Cardano.NET. Cardano.NET is a C# client for the
Cardano wallet HTTP API. The model covers:

- **The transaction draft builder** (`WalletAPI.Transaction.Builder`). It holds a
  list of payment lines, each an address and a lovelace quantity.
  - `Add` merges by address.
  - `Remove` deletes the first line with a matching address.
  - `Final` copies the lines into the draft.
  - `Sign` finalises the draft and then sets the passphrase.
  - `Total` sums the quantities.
- **The error-envelope protocol.**
  - `Client` turns every response with a non-success status into the text
    `"!<ERROR>|status|body|payload"`.
  - Every resource operation reads its raw result back with one shared
    template. A result that begins with the flag is split on `'|'` and
    field 2 is parsed as the `Error`. Any other result is the success body,
    and the error becomes `{code "000", message ""}`.
- **The base URL.**
  - Both `WalletAPI` constructors normalise the URL they are given.
  - `UrlBuilder` appends each request's parameter to the static `baseURL`
    and stores the result back.
  - Every `new Client(url)` overwrites the static `Client.url`.
- **The resource operations** of `Wallet`, `Address` and `Transaction`. Each
  is modelled as two parts:
  - its request: the `UrlBuilder` parameter, the HTTP method and the
    payload or query;
  - the decoding of the raw string the client returns.
  - `Wallet.Balance` is modelled on top of `Wallet.Get`.
- **`Tools.WordCount` and `Tools.ToADA`.**
- **The `Data` records** the logic reads or writes, with their default
  values.

HTTP, JSON and some helpers are function parameters of the model:

- An HTTP exchange is a `Response`: answered, with a success bit, the status
  text and the body, or unreachable.
- Each JSON deserialiser is a `string -> Json<T>`. It returns a value,
  `null`, or an exception for unreadable text.
- The serialisers, `Tools.ToLovelace` and `Tools.ToDateISO8601` are opaque
  functions passed in. The dates reach the model already formatted.
- `Run<T>` records whether C# code returns or throws. It covers:
  - the index into field 2 of a short flagged result;
  - a `null` dereference;
  - unreadable JSON;
  - a transport exception. `Task.Wait` rethrows it and nothing catches it.

Two C# details are written out explicitly:

- `Denomination.quantity` is an `Int32`. The merge in `Add` (`+=`) wraps
  around (`Common.Wrap32`).
- `Total` accumulates into a `Decimal`, which cannot overflow here.

C# `String.Split(char)` is `Strings.Split`. It always yields one more piece
than there are delimiters, and it keeps empty pieces.

Where the code and its documentation differ, the model follows the code:

- The documentation of `Wallet.Balance` (Wallet.cs:18-22) promises a zero
  balance on a network error. The code calls `Get` (Wallet.cs:29), whose
  `t.Wait()` (Wallet.cs:130) rethrows the transport exception, and nothing
  catches it. The model returns `Threw`.
- `Builder.Total` is documented as the total amount of ADA. It returns the
  sum in lovelace, with no conversion.

## Model

| member | source | states |
|---|---|---|
| Common.Wrap32 | Transaction.cs:55 | The `Int32` result of unchecked `+=`. It is congruent to the true sum modulo 2^32, and equal to it whenever the sum is in range. |
| Strings.Split | Transaction.cs:161 | `String.Split(char)` yields exactly one more piece than the text has delimiters, and no piece contains the delimiter. |
| Strings.SplitJoin | Client.cs:52-53 | Fields without the delimiter, joined with it, split back into exactly those fields. |
| Strings.JoinSplit | Transaction.cs:161 | Joining the pieces of a split with the delimiter gives back the original text. |
| Strings.CountJoin | Client.cs:52-53 | Joining n fields puts at least n-1 delimiters into the text. |
| Strings.DecimalRoundTrip | Transaction.cs:268 | The decimal rendering of a number (`Int32.ToString()` for a positive value) is non-empty, digits only, has no leading zero for a positive number, and reads back as that number. |
| Data.BalancesValue | Data.cs:17-22 | The numeric values of the `Balances` enumeration lie in 0..2. |
| Data.BalancesValueInjective | Data.cs:17-22 | Distinct `Balances` members have distinct values (0, 1, 2). |
| Data.NewDenomination | Data.cs:359-363 | A new denomination is zero `"lovelace"`. |
| Data.NewDraft | Data.cs:72-78 | A new draft has no passphrase and no payments, withdraws from `"self"`, and has a time to live of 500 `"second"`. |
| Data.NewWalletOptions | Data.cs:225-231 | New wallet options have an address pool gap of 20 and nothing else set. |
| Data.NewWallet | Data.cs:194-206 | A new wallet has every reference `null` and a pool gap of 0. |
| Data.NewWalletList | Data.cs:213-218 | A new wallet list has a `null` array and a `null` error. |
| Data.NewAddressList | Data.cs:146-151 | A new address list has a `null` array and a `null` error. |
| Data.NewFee | Data.cs:80-87 | A new fee record has every estimate and the error `null`. |
| Data.NewInformation | Data.cs:89-109 | A new transaction record has a depth of 0 `"block"` and every other modelled field `null`. |
| Data.NewTransactionList | Data.cs:111-115 | A new transaction list has a `null` array and a `null` error. |
| Protocol.Envelope | Client.cs:52-53 | A failure envelope begins with `"!<ERROR>"`, holds at least three `'|'`, and is flag, status, body and payload joined by `'|'`. |
| Protocol.Call | Client.cs:35-170 | A transport failure throws. A success returns the body unchanged. Any other answer returns the failure envelope, which begins with the flag. |
| Protocol.FailedCallFields | Client.cs:79-168 | If status, body and payload hold no `'|'`, a failed call's text splits into exactly its four fields. Field 3 is `"<no payload>"` for `Delete` and plain `Get`, the query for `Get(query)`, and the JSON for `Post`/`Put`. |
| Protocol.EnvelopeLeadingFields | Client.cs:52-53 | Fields 0-2 of an envelope are the flag, the status and the body, whatever the payload contains. |
| Protocol.Classify | Wallet.cs:64-68 | A result is read as a success exactly when it does not begin with the flag. A flagged result with fewer than two `'|'` has no field 2. Otherwise the error field is exactly piece 2 of the split on `'|'`, and it holds no `'|'`. |
| Protocol.ClassifyEnvelope | Wallet.cs:64-68 | Every failure envelope is read as flagged. When status and body hold no `'|'`, its field 2 is the response body. |
| Protocol.ShortResultIsPlain | Wallet.cs:64-65 | A result shorter than the flag is always read as a success. |
| Protocol.FlagLikeSuccessBodyIsNotPlain | Wallet.cs:64-65 | A successful response whose body begins with `"!<ERROR>"` is returned unchanged by the client, yet is not read as a success. |
| Protocol.ReadError | Wallet.cs:67-68 | Parsing field 2 gives the error, `null` for a JSON `null`, and throws exactly on unreadable text. |
| Protocol.Decode | Wallet.cs:64-81 | The shared read-back, as an outcome: success only for unflagged text and failure only for flagged text. A readable field 2 gives the failure with the parsed error, and a JSON `null` gives the failure with no error object. Unflagged text gives the deserialised body. It faults exactly on a truncated flagged text, an unreadable error, or an unreadable body. |
| Protocol.DecodeRejectedCall | Wallet.cs:64-72 | End to end, a rejected call whose body parses to error `e` is read as the failure `e`. |
| Protocol.DecodeAcceptedCall | Wallet.cs:73-81 | End to end, an accepted call whose body does not begin with the flag is read as the deserialised body. |
| Protocol.ObjectShape | Wallet.cs:54-83 | One-object operations. Failure gives a fresh object with only the error. Success gives the decoded object with the success error. A `null` object or a fault throws, and nothing else does. |
| Protocol.ListShape | Wallet.cs:162-190 | List operations. Failure leaves the array `null`. Success stores the decoded array (possibly `null`) with the success error. Only a fault throws. |
| Protocol.ErrorOnly | Wallet.cs:93-114 | Error-only operations. Unflagged text gives the success error without deserialising the body. Flagged text gives the parsed field 2. Truncated text throws. |
| Protocol.Exchange | Wallet.cs:127-130 | A request whose transport fails throws. Otherwise the result is the operation's decoding of what the client returned. |
| Api.Normalize | WalletAPI.cs:22-24 | The stored base ends in `"v2/"` and extends the input. An input ending in `"v2/"` is kept. One ending in `"/"` gets `"v2/"`. Any other gets `"/v2/"`. |
| Api.NormalizeIdempotent | WalletAPI.cs:22-24 | Normalising twice is normalising once. |
| Api.NormalizeDoublesBareVersion | WalletAPI.cs:22-24 | A base ending in `"/v2"` without the slash gets a second version segment: `host/v2/v2/`. |
| Api.Construct | WalletAPI.cs:20-25 | The one-argument constructor stores the normalised base and leaves the other statics alone. |
| Api.ConstructWithFilePath | WalletAPI.cs:27-33 | The two-argument constructor normalises the same way and also stores the wallet file path. |
| Api.UrlBuilder | WalletAPI.cs:48-51 | The returned URL is the old base followed by the parameter, and it becomes the new base. |
| Api.NewClient | Client.cs:25-28 | Constructing a client overwrites the shared static URL with its argument. |
| Api.PrepareAllAccumulates | WalletAPI.cs:48-51 | After requests with parameters p1..pk, the base is the original base followed by p1..pk, and the last request went to that URL. |
| Api.IntendedPrepare | WalletAPI.cs:48-51 | Corrected request step: the client URL is the configured base followed by the parameter, and the base is unchanged. |
| Api.IntendedUrlIgnoresHistory | WalletAPI.cs:48-51 | With the corrected step, any history of requests leaves the base unchanged, and each request goes to base + its own parameter. |
| PaymentBuilder.New | Transaction.cs:32-35 | A new builder has no lines and a default draft. |
| PaymentBuilder.Add | Transaction.cs:42-83 | For a present address, length, order and addresses are kept, every other line is unchanged, and the matching line's quantity is credited (wrapping). For an absent address (also with no lines), a new lovelace line is appended after the untouched old lines. The draft is unchanged. |
| PaymentBuilder.FirstIndex | Transaction.cs:107 | `Find` locates the first line with the address: it matches, and no earlier line does. |
| PaymentBuilder.RemoveFirst | Transaction.cs:106-107 | `List.Remove(Find(...))` deletes exactly the first matching line and keeps the rest in order. With no match the list is unchanged. |
| PaymentBuilder.Remove | Transaction.cs:100-112 | Deletes the first line with the address. Nothing changes for a missing address or for `null` lines. The draft is untouched. |
| PaymentBuilder.Final | Transaction.cs:90-93 | The draft's payments become the current lines. The lines, passphrase, withdrawal and time to live are unchanged. |
| PaymentBuilder.Sign | Transaction.cs:119-124 | Like `Final`, and the passphrase becomes the password. Lines, withdrawal and time to live are unchanged. |
| PaymentBuilder.SignIsFinalWithPassphrase | Transaction.cs:119-124 | Signing equals finalising plus setting the passphrase. Finalising before or after signing changes nothing. |
| PaymentBuilder.FinalIsSnapshot | Transaction.cs:90-93 | An `Add` of a new recipient after `Final` changes the lines but not the finalised draft. |
| PaymentBuilder.Total | Transaction.cs:131-140 | The total is the plain sum of the line quantities in lovelace, and 0 for no lines. |
| PaymentBuilder.AddRaisesSum | Transaction.cs:48-82 | With distinct addresses and no overflow, `Add` raises the total by exactly the converted amount. |
| PaymentBuilder.AddCreditsOneLine | Transaction.cs:49-63 | With distinct addresses, `Add` of a present recipient changes exactly its one line, by the converted amount. |
| PaymentBuilder.AddKeepsDistinct | Transaction.cs:42-83 | `Add` keeps the addresses pairwise distinct. |
| PaymentBuilder.RemoveKeepsDistinct | Transaction.cs:100-112 | `Remove` keeps the addresses pairwise distinct. |
| PaymentBuilder.AddThenRemoveRestores | Transaction.cs:66-82 | Adding a recipient that is absent from a non-null list, then removing it, restores the builder exactly. |
| PaymentBuilder.ReplayKeepsDistinct | Transaction.cs:42-112 | From a builder with pairwise distinct addresses, any sequence of `Add` and `Remove` keeps them pairwise distinct. |
| PaymentBuilder.ReplayFromNewKeepsDistinct | Transaction.cs:32-112 | From a new builder, any sequence of `Add` and `Remove` keeps the addresses pairwise distinct. |
| Tools.ToAda | Tools.cs:15-19 | The ADA amount times one million is exactly the lovelace amount, and it is non-negative for a non-negative amount. |
| Tools.WordCount | Tools.cs:63-75 | 0 for `null` and for `""`. Otherwise the number of spaces plus one, so every space starts a word. |
| Tools.OneWord | Tools.cs:71 | A non-empty text without spaces is one word. |
| Tools.WordCountJoin | Tools.cs:71 | Joining two non-empty texts with one space adds their counts. |
| Wallets.CreateRequest | Wallet.cs:57-60 | `Create` posts the serialised options to `"wallets"`. |
| Wallets.DeleteRequest | Wallet.cs:95-97 | `Delete` sends a DELETE to `"wallets/"` followed by the wallet id. |
| Wallets.GetRequest | Wallet.cs:127-129 | `Get` sends a GET to the same target as `Delete`. |
| Wallets.ListRequest | Wallet.cs:165-167 | `List` sends a GET to `"wallets/"`, the `Create` parameter plus a slash. |
| Wallets.DecodeWallet | Wallet.cs:134-152 | A flagged result gives a fresh wallet carrying only the error. Otherwise the decoded wallet carries the success error. It throws exactly on a fault or a `null` wallet. |
| Wallets.DecodeWalletList | Wallet.cs:172-190 | A flagged result leaves `wallets` `null`. Otherwise the decoded array comes with the success error. It throws exactly on a fault. |
| Wallets.DeleteReportsOutcome | Wallet.cs:91-115 | End to end, `Delete` reports the success error for any accepted deletion whose body does not begin with the flag, and the parsed error for a rejected one. |
| Wallets.Select | Wallet.cs:37-41 | `Available` selects `available`, `Rewards` selects `reward`, and `Total` selects `total`. |
| Wallets.Balance | Wallet.cs:27-45 | Every path is fixed. A rejected lookup whose error code is not `"000"` gives 0. An accepted lookup with a selected denomination gives its quantity in ADA. Every other case throws: a truncated flagged text, an unreadable or `null` error, a flagged error with code `"000"` (the fresh wallet has no balance), an unreadable or `null` wallet, and a `null` balance or denomination. A non-zero balance implies a successful lookup. |
| Wallets.BalanceOfRejectedLookup | Wallet.cs:29-32 | End to end, a lookup the service rejects with a non-success code gives balance 0. |
| Wallets.BalanceOfUnreachableService | Wallet.cs:18-32 | Unlike the documented zero balance on a network error, an unreachable service makes `Balance` throw: the lookup's exception propagates. |
| Wallets.ListAfterGetRepeatsPath | WalletAPI.cs:48-51 | Example: after constructing with `http://127.0.0.1:8090/` and getting wallet `w1` (URL `.../v2/wallets/w1`), the wallet list request goes to `.../v2/wallets/w1wallets/`. |
| Addresses.Target | Address.cs:26 | Both overloads target `"wallets/" + id + "/addresses"`, and the id is recoverable from it. |
| Addresses.ListRequest | Address.cs:26-28 | The unfiltered listing is a plain GET of that target. |
| Addresses.ListByStateRequest | Address.cs:64-67 | The filtered listing GETs the same target. Its query is `"state="` followed by exactly the state. For a state without `'='` it splits into name and value. |
| Addresses.DecodeAddressList | Address.cs:32-48 | A flagged result leaves `addresses` `null` with the parsed error. Otherwise the decoded array comes with the success error. |
| Addresses.RejectedFilteredListingEchoesQuery | Client.cs:109-110 | When a filtered listing is rejected, field 3 of the failure text is the `state=` query. |
| Transactions.Collection | Transaction.cs:263 | The `List`/`Send` target is `"wallets/"`, then exactly the wallet id, then `"/transactions"`. |
| Transactions.CancelRequest | Transaction.cs:152-154 | `Cancel` sends a DELETE to the collection followed by `"/"` and the transaction id. |
| Transactions.GetRequest | Transaction.cs:223-225 | `Get` sends a GET to the target `Cancel` deletes. |
| Transactions.EstimateRequest | Transaction.cs:184-187 | `Estimate` posts the serialised draft to `"wallets/"`, then exactly the wallet id, then `"/payment-fees"`. |
| Transactions.SendRequest | Transaction.cs:307-310 | `Send` posts the serialised draft to the collection. |
| Transactions.ListQuery | Transaction.cs:264-268 | As written: start, `"&end"` directly followed by the end date, order, and `"&minWithdrawal=" + n` exactly when n >= 1. |
| Transactions.ListQueryIsJoin | Transaction.cs:264-268 | The query as written is its fields joined by `'&'`. |
| Transactions.ListQueryFields | Transaction.cs:264-268 | Splitting the query on `'&'` gives exactly its three fields, and a fourth for the minimum withdrawal exactly when it is at least one. |
| Transactions.ListQueryEndHasNoSeparator | Transaction.cs:266 | For dates without `'&'` or `'='`, the second field has no `'='`, so it carries no `end` value. |
| Transactions.IntendedListQuery | Transaction.cs:264-268 | Corrected query: it begins with `"start=" + start + "&end=" + end + "&order=" + order`. |
| Transactions.IntendedListQueryIsJoin | Transaction.cs:264-268 | The corrected query is its `name=value` fields joined by `'&'`. |
| Transactions.IntendedListQueryFields | Transaction.cs:264-268 | Every field of the corrected query splits into its name and the given value, and the minimum withdrawal reads back as the number sent. |
| Transactions.ListRequest | Transaction.cs:263-270 | `List` sends a GET to the `Send` target with the query as written, which begins with `"start=" + start + "&end" + end`. |
| Transactions.IntendedListRequest | Transaction.cs:263-270 | Corrected request: the same target with the corrected query. For dates and order without `'&'` or `'='`, the query's second field splits into `end` and the end date. |
| Transactions.CancelReportsOutcome | Transaction.cs:148-172 | End to end, `Cancel` reports the success error when accepted and the parsed error when rejected. The failure text then carries `"<no payload>"` as field 3. |
| Transactions.DecodeFee | Transaction.cs:191-210 | A flagged result gives a fresh fee record with only the error. Otherwise the decoded fee comes with the success error. A `null` fee throws. |
| Transactions.DecodeInformation | Transaction.cs:229-248 | A flagged result gives a fresh record (no id, depth 0 blocks) with only the error. Otherwise the decoded record comes with the success error. |
| Transactions.DecodeTransactionList | Transaction.cs:274-294 | A flagged result leaves the array `null`. Otherwise the decoded array comes with the success error. |

## Left out

- HTTP transport (`HttpClient`, `Task.Run`, `Task.Wait`): left out as I/O. A call is an abstract `Response`. A failed transport is `Unreachable`, and its exception propagates.
- JSON serialisation and deserialisation (Newtonsoft): foreign calls. They are function parameters.
- `Tools.ToLovelace` and `Tools.ToInteger`: they depend on culture-specific `"N6"` formatting and `Convert.ToInt32`. `ToLovelace` is an opaque function parameter of the builder.
- `Tools.ToDateISO8601`: `DateTime` formatting. The query functions take the formatted dates.
- `WalletAPI.ExecuteWallet`: it launches an OS process.
- RecoveryPhrase.cs is not part of this model. It only splits the output of an external mnemonic generator.
- Network.cs is not part of this model. It is a bare GET plus deserialisation, with no envelope check.
- Reference aliasing: `Final` shares the line objects with the draft, so in C# a later merging `Add` also changes the draft's quantity. The model has value semantics. `PaymentBuilder.FinalIsSnapshot` holds only for a new recipient, which is why it is stated only for one.
- `null` strings (addresses, ids, states) and `null` `amount` objects of payment lines are not modelled. Only the references the logic checks or dereferences on its main path are `Option`s.
- `String.EndsWith` in the constructors is culture-sensitive in .NET. The model compares characters exactly.
- JSON-only fields and records of `Data` that no modelled logic reads are left out: `assets`, `derivation_path`, `minimum_coins`, the transaction inputs and outputs, `CoinSelection`, `NodeTip`, `Delegation` and similar.
- `Wallets.Select`: it takes only the three declared `Balances` members. C# would also accept an out-of-range enum value, which would select `total`.
- `Data.BalancesValue`: states the range and (in `BalancesValueInjective`) the distinctness of the enumeration values. The exact values 0, 1, 2 appear only in its definition.
- `Tools.WordCount`: the count is an unbounded `nat`. The C# `Int32` result would only differ for texts of more than 2^31 pieces.

## Findings

| source | as written | input that shows it | evidently intended | confidence | as-written member | corrected member |
|---|---|---|---|---|---|---|
| WalletAPI.cs:48-51 | `UrlBuilder` returns `baseURL += parameter`, so every request's URL becomes the base for the next one | construct with `http://127.0.0.1:8090/`, call `Wallet.Get("w1")`, then `Wallet.List()`: the list request goes to `http://127.0.0.1:8090/v2/wallets/w1wallets/` | each request goes to the configured base followed by its own parameter, and the base stays as configured | high, not executed | Wallets.ListAfterGetRepeatsPath | Api.IntendedUrlIgnoresHistory |
| Transaction.cs:266 | the `List` query contains `"&end" + date` with no `'='` | any call of `Transaction.List`: the second query field is `"end"` directly followed by the formatted end date, which has no value separator, so no `end` parameter is sent | `"&end=" + date`, like the other three parameters | high, not executed | Transactions.ListQueryEndHasNoSeparator | Transactions.IntendedListRequest |

=== FILE: addresses.dfy ===
/**
  `WalletAPI.Address`: the two `List` overloads, which target the same
  resource and differ only in the `state=` query of the filtered one.
 */
module Addresses {
  import opened Common
  import opened Strings
  import opened Data
  import P = Protocol

  /** The `UrlBuilder` parameter of both overloads. */
  function Target(walletId: string): (p: string)
    ensures StartsWith(p, "wallets/") && EndsWith(p, "/addresses")
    ensures |p| == |"wallets/"| + |walletId| + |"/addresses"|
    ensures p[|"wallets/"|..|p| - |"/addresses"|] == walletId
  {
    var p := "wallets/" + walletId + "/addresses";
    assert p[..|"wallets/"|] == "wallets/";
    assert p[|p| - |"/addresses"|..] == "/addresses";
    assert p[|"wallets/"|..|p| - |"/addresses"|] == walletId;
    p
  }

  /** `List(walletID)`: a plain GET. */
  function ListRequest(walletId: string): (r: P.Request)
    ensures r.parameter == Target(walletId) && r.verb == P.Get
  {
    P.Request(Target(walletId), P.Get)
  }

  /** `List(walletID, state)`: a GET with the query `"state=" + state`. */
  function ListByStateRequest(walletId: string, state: string): (r: P.Request)
    ensures r.parameter == ListRequest(walletId).parameter
    ensures r.verb.GetQuery? && StartsWith(r.verb.query, "state=")
    ensures |r.verb.query| == |"state="| + |state| && r.verb.query[|"state="|..] == state
    ensures '=' !in state ==> Split(r.verb.query, '=') == ["state", state]
  {
    var q := "state=" + state;
    assert q[..|"state="|] == "state=";
    assert '=' !in state ==> Split(q, '=') == ["state", state] by {
      if '=' !in state {
        assert q == "state" + ['='] + state;
        SplitAfterField("state", state, '=');
        SplitWithoutDelimiter(state, '=');
      }
    }
    P.Request(Target(walletId), P.GetQuery(q))
  }

  /** The decoding shared by both overloads: on a flagged result the
      addresses stay `null` and the error is the service's; otherwise the
      deserialised array with the success error. */
  function DecodeAddressList(raw: string, parseError: string -> P.Json<Error>,
                             parseAddresses: string -> P.Json<seq<AddressInfo>>): (r: Run<AddressList>)
    ensures StartsWith(raw, P.ErrorFlag) && r.Returned? ==> r.value.addresses == None
    ensures var o := P.Decode(raw, parseError, parseAddresses);
      && (o.Failure? ==> r == Returned(AddressList(None, o.error)))
      && (o.Success? ==> r == Returned(AddressList(o.value, Some(P.SuccessError))))
      && (r.Threw? <==> o.Fault?)
  {
    P.ListShape(P.Decode(raw, parseError, parseAddresses), NewAddressList(),
                (l: AddressList, xs: Option<seq<AddressInfo>>) => l.(addresses := xs),
                (l: AddressList, e: Option<Error>) => l.(error := e))
  }

  /** End to end: when the filtered listing is rejected, the failure
      envelope echoes the `state=` query as its payload field. */
  lemma RejectedFilteredListingEchoesQuery(walletId: string, state: string, resp: P.Response)
    requires resp.Answered? && !resp.isSuccess
    requires P.Delimiter !in resp.status && P.Delimiter !in resp.body && P.Delimiter !in state
    ensures var raw := P.Call(ListByStateRequest(walletId, state).verb, resp);
      raw.Returned? && Split(raw.value, P.Delimiter)[3] == "state=" + state
  {
    var v := ListByStateRequest(walletId, state).verb;
    CountConcat("state=", state, P.Delimiter);
    CountZeroIffAbsent("state=" + state, P.Delimiter);
    P.FailedCallFields(v, resp);
  }
}

=== FILE: api.dfy ===
/**
  The process-wide state of `WalletAPI`: the static `baseURL` set by the
  constructors, the static `walletFilePath`, and the static `Client.url`
  that every `new Client(...)` overwrites. Each resource operation calls
  `UrlBuilder(parameter)`, which appends the parameter to `baseURL` AND
  writes the result back, so successive requests accumulate path segments.
 */
module Api {
  import opened Strings

  /** The static fields of `WalletAPI` and of its nested `Client`. */
  datatype Globals = Globals(baseUrl: string, walletFilePath: string, clientUrl: string)

  /** The static initialisers: every field the empty string. */
  const Initial: Globals := Globals("", "", "")

  const Version: string := "v2/"

  /** The constructors' normalisation: add a `'/'` unless the input already
      ends in one, then `"v2/"` unless the input already ends in it. */
  function Normalize(u: string): (r: string)
    ensures EndsWith(r, Version)
    ensures StartsWith(r, u)
    ensures EndsWith(u, Version) ==> r == u
    ensures EndsWith(u, "/") && !EndsWith(u, Version) ==> r == u + Version
    ensures !EndsWith(u, "/") ==> r == u + "/" + Version
  {
    var r := u + (if EndsWith(u, "/") then "" else "/") + (if EndsWith(u, Version) then "" else Version);
    assert r[..|u|] == u;
    assert EndsWith(u, Version) ==> EndsWith(u, "/") by {
      if EndsWith(u, Version) {
        assert u[|u| - 1..] == Version[2..];
      }
    }
    r
  }

  /** Normalising twice is normalising once. */
  lemma NormalizeIdempotent(u: string)
    ensures Normalize(Normalize(u)) == Normalize(u)
  {
  }

  /** A base that ends in `"/v2"` without the final slash gets a second
      `v2` segment. */
  lemma NormalizeDoublesBareVersion(host: string)
    ensures Normalize(host + "/v2") == host + "/v2/v2/"
  {
    var u := host + "/v2";
    assert u[|u| - 1..] == "2";
    assert !EndsWith(u, "/");
  }

  /** `new WalletAPI(BaseURL)`. */
  function Construct(g: Globals, baseUrl: string): (r: Globals)
    ensures EndsWith(r.baseUrl, Version) && StartsWith(r.baseUrl, baseUrl)
    ensures r.baseUrl == Normalize(baseUrl)
    ensures r.walletFilePath == g.walletFilePath && r.clientUrl == g.clientUrl
  {
    g.(baseUrl := Normalize(baseUrl))
  }

  /** `new WalletAPI(BaseURL, WalletFilePath)`: the same normalisation, and
      the file path is stored too. */
  function ConstructWithFilePath(g: Globals, baseUrl: string, filePath: string): (r: Globals)
    ensures r == Construct(g, baseUrl).(walletFilePath := filePath)
    ensures EndsWith(r.baseUrl, Version) && StartsWith(r.baseUrl, baseUrl)
    ensures r.walletFilePath == filePath && r.clientUrl == g.clientUrl
  {
    g.(walletFilePath := filePath, baseUrl := Normalize(baseUrl))
  }

  /** `WalletAPI.UrlBuilder(parameter)`, which is `return baseURL += parameter`:
      the returned URL extends the old base, and becomes the new base. */
  function UrlBuilder(g: Globals, parameter: string): (r: (Globals, string))
    ensures StartsWith(r.1, g.baseUrl) && r.1[|g.baseUrl|..] == parameter
    ensures r.0.baseUrl == r.1
    ensures r.0.walletFilePath == g.walletFilePath && r.0.clientUrl == g.clientUrl
  {
    var url := g.baseUrl + parameter;
    assert url[..|g.baseUrl|] == g.baseUrl;
    (g.(baseUrl := url), url)
  }

  /** `new Client(url)`: overwrites the shared static `Client.url`. */
  function NewClient(g: Globals, url: string): (r: Globals)
    ensures r.clientUrl == url
    ensures r.baseUrl == g.baseUrl && r.walletFilePath == g.walletFilePath
  {
    g.(clientUrl := url)
  }

  /** `new Client(UrlBuilder(parameter))`, the first step of every resource
      operation. */
  function Prepare(g: Globals, parameter: string): Globals
  {
    var (g', url) := UrlBuilder(g, parameter);
    NewClient(g', url)
  }

  /** The parameters concatenated in order. */
  function Concat(ps: seq<string>): string
  {
    if |ps| == 0 then "" else Concat(ps[..|ps| - 1]) + ps[|ps| - 1]
  }

  /** A run of resource operations with the given URL parameters. */
  function PrepareAll(g: Globals, ps: seq<string>): Globals
  {
    if |ps| == 0 then g else Prepare(PrepareAll(g, ps[..|ps| - 1]), ps[|ps| - 1])
  }

  /** After requests with parameters `p1 .. pk` the base is the original base
      followed by all of them, and the last request went to that URL. */
  lemma {:induction false} PrepareAllAccumulates(g: Globals, ps: seq<string>)
    ensures PrepareAll(g, ps).baseUrl == g.baseUrl + Concat(ps)
    ensures |ps| > 0 ==> PrepareAll(g, ps).clientUrl == g.baseUrl + Concat(ps)
    ensures PrepareAll(g, ps).walletFilePath == g.walletFilePath
  {
    if |ps| > 0 {
      PrepareAllAccumulates(g, ps[..|ps| - 1]);
    }
  }

  /** The evidently intended request URL: the configured base followed by
      the parameter, the base left as configured. */
  function IntendedPrepare(g: Globals, parameter: string): (r: Globals)
    ensures r.baseUrl == g.baseUrl && r.walletFilePath == g.walletFilePath
    ensures StartsWith(r.clientUrl, g.baseUrl) && r.clientUrl[|g.baseUrl|..] == parameter
  {
    var url := g.baseUrl + parameter;
    assert url[..|g.baseUrl|] == g.baseUrl;
    g.(clientUrl := url)
  }

  function IntendedPrepareAll(g: Globals, ps: seq<string>): Globals
  {
    if |ps| == 0 then g else IntendedPrepare(IntendedPrepareAll(g, ps[..|ps| - 1]), ps[|ps| - 1])
  }

  /** With the intended behaviour, any history of requests leaves the base
      unchanged and the latest request goes to base + its own parameter. */
  lemma {:induction false} IntendedUrlIgnoresHistory(g: Globals, ps: seq<string>)
    ensures IntendedPrepareAll(g, ps).baseUrl == g.baseUrl
    ensures |ps| > 0 ==> IntendedPrepareAll(g, ps).clientUrl == g.baseUrl + ps[|ps| - 1]
  {
    if |ps| > 0 {
      IntendedUrlIgnoresHistory(g, ps[..|ps| - 1]);
    }
  }
}

=== FILE: builder.dfy ===
/**
  `WalletAPI.Transaction.Builder`: an accumulator of payment lines
  (address, lovelace quantity) and the draft it finalises.

  The ADA-to-lovelace conversion `Tools.ToLovelace` is an abstract function
  parameter. Quantities are C# `Int32`, so merging an amount into an existing
  line wraps around on overflow.
 */
module PaymentBuilder {
  import opened Common
  import opened Data

  /** The builder's two fields: the draft and the current lines
      (`null` until the first `Add`). */
  datatype Builder = Builder(draft: Draft, payments: Option<seq<Payment>>)

  /** A single edit made by the builder's owner. */
  datatype Edit = AddLine(address: string, amountAda: real) | RemoveLine(address: string)

  /** `new Builder()`: a fresh draft and no lines. */
  function New(): (b: Builder)
    ensures b.payments == None
    ensures b.draft == NewDraft()
  {
    Builder(NewDraft(), None)
  }

  /** The lines, reading `null` as no lines. */
  function Lines(b: Builder): seq<Payment>
  {
    match b.payments
    case None => []
    case Some(ps) => ps
  }

  /** The addresses of the lines, in order. */
  function Addresses(ps: seq<Payment>): (r: seq<string>)
    ensures |r| == |ps|
    ensures forall i :: 0 <= i < |ps| ==> r[i] == ps[i].address
  {
    if |ps| == 0 then [] else [ps[0].address] + Addresses(ps[1..])
  }

  /** No two lines share an address. */
  ghost predicate Distinct(ps: seq<Payment>)
  {
    forall i, j :: 0 <= i < j < |ps| ==> ps[i].address != ps[j].address
  }

  /** The sum of the lines' quantities, as an unbounded number (the source
      accumulates into a `Decimal`, which cannot overflow here). */
  function Sum(ps: seq<Payment>): int
  {
    if |ps| == 0 then 0 else Sum(ps[..|ps| - 1]) + ps[|ps| - 1].amount.quantity
  }

  /** One line with `delta` lovelace added to its quantity (`+=` on an `Int32`). */
  function Bump(p: Payment, delta: Int32): Payment
  {
    p.(amount := p.amount.(quantity := Wrap32(p.amount.quantity + delta)))
  }

  /** The `foreach` of `Add`: every line whose address matches is credited. */
  function Credit(ps: seq<Payment>, address: string, delta: Int32): seq<Payment>
  {
    seq(|ps|, i requires 0 <= i < |ps| => if ps[i].address == address then Bump(ps[i], delta) else ps[i])
  }

  /** A fresh line for a recipient not yet in the list. */
  function NewLine(address: string, delta: Int32): Payment
  {
    Payment(address, NewDenomination().(quantity := delta))
  }

  /** `Add(address, amountADA)`. */
  function Add(b: Builder, address: string, amountAda: real, toLovelace: real -> Int32): (r: Builder)
    ensures r.draft == b.draft && r.payments.Some?
    // a recipient already present: same length and order, its line credited
    ensures address in Addresses(Lines(b)) ==>
      && |Lines(r)| == |Lines(b)|
      && forall i :: 0 <= i < |Lines(b)| ==>
           && Lines(r)[i].address == Lines(b)[i].address
           && Lines(r)[i].amount.unit == Lines(b)[i].amount.unit
           && (Lines(b)[i].address != address ==> Lines(r)[i] == Lines(b)[i])
           && (Lines(b)[i].address == address ==>
                 Lines(r)[i].amount.quantity == Wrap32(Lines(b)[i].amount.quantity + toLovelace(amountAda)))
    // a new recipient: appended at the end in lovelace, the rest untouched
    ensures address !in Addresses(Lines(b)) ==>
      Lines(r) == Lines(b) + [Payment(address, Denomination(toLovelace(amountAda), "lovelace"))]
  {
    var delta := toLovelace(amountAda);
    var ps := Lines(b);
    var credited := Credit(ps, address, delta);
    if address in Addresses(ps) then
      b.(payments := Some(credited))
    else
      CreditWithoutMatch(ps, address, delta);
      b.(payments := Some(credited + [NewLine(address, delta)]))
  }

  lemma CreditWithoutMatch(ps: seq<Payment>, address: string, delta: Int32)
    requires address !in Addresses(ps)
    ensures Credit(ps, address, delta) == ps
  {
  }

  /** The first line with the given address. */
  function FirstIndex(ps: seq<Payment>, address: string): (i: nat)
    requires address in Addresses(ps)
    ensures i < |ps| && ps[i].address == address
    ensures forall j :: 0 <= j < i ==> ps[j].address != address
  {
    if ps[0].address == address then 0 else 1 + FirstIndex(ps[1..], address)
  }

  /** `List.Remove(List.Find(p => p.address == address))`. */
  function RemoveFirst(ps: seq<Payment>, address: string): (r: seq<Payment>)
    ensures address !in Addresses(ps) ==> r == ps
    ensures address in Addresses(ps) ==>
      r == ps[..FirstIndex(ps, address)] + ps[FirstIndex(ps, address) + 1..]
  {
    if |ps| == 0 then []
    else if ps[0].address == address then ps[1..]
    else
      var rest := RemoveFirst(ps[1..], address);
      RemoveFirstPastHead(ps, address, rest);
      [ps[0]] + rest
  }

  /** The recursive step of `RemoveFirst`: keeping a non-matching head in
      front of the tail's result removes the first match of the whole list. */
  lemma {:induction false} RemoveFirstPastHead(ps: seq<Payment>, address: string, rest: seq<Payment>)
    requires |ps| > 0 && ps[0].address != address
    requires address !in Addresses(ps[1..]) ==> rest == ps[1..]
    requires address in Addresses(ps[1..]) ==>
      rest == ps[1..][..FirstIndex(ps[1..], address)] + ps[1..][FirstIndex(ps[1..], address) + 1..]
    ensures address !in Addresses(ps) ==> [ps[0]] + rest == ps
    ensures address in Addresses(ps) ==>
      [ps[0]] + rest == ps[..FirstIndex(ps, address)] + ps[FirstIndex(ps, address) + 1..]
  {
    MembershipPastHead(ps, address);
    if address in Addresses(ps[1..]) {
      var j := FirstIndex(ps[1..], address);
      FirstIndexPastHead(ps, address);
      DeleteBehindHead(ps, j);
    } else {
      assert ps == [ps[0]] + ps[1..];
    }
  }

  /** Deleting the element at `j` of the tail, with the head kept in front,
      deletes the element at `j + 1` of the whole list. */
  lemma {:induction false} DeleteBehindHead(ps: seq<Payment>, j: nat)
    requires j + 1 < |ps|
    ensures [ps[0]] + (ps[1..][..j] + ps[1..][j + 1..]) == ps[..j + 1] + ps[j + 2..]
  {
    assert ps[..j + 1] == [ps[0]] + ps[1..][..j];
    assert ps[j + 2..] == ps[1..][j + 1..];
  }

  /** A non-matching head does not change whether an address is listed. */
  lemma {:induction false} MembershipPastHead(ps: seq<Payment>, address: string)
    requires |ps| > 0 && ps[0].address != address
    ensures address in Addresses(ps) <==> address in Addresses(ps[1..])
  {
    assert Addresses(ps) == [ps[0].address] + Addresses(ps[1..]);
  }

  /** Unfolds `FirstIndex` one step past a non-matching head. */
  lemma {:induction false} FirstIndexPastHead(ps: seq<Payment>, address: string)
    requires |ps| > 0 && ps[0].address != address
    requires address in Addresses(ps[1..])
    ensures address in Addresses(ps)
    ensures FirstIndex(ps, address) == FirstIndex(ps[1..], address) + 1
  {
    MembershipPastHead(ps, address);
  }

  /** `Remove(address)`: deletes the first line with that address; nothing
      happens for a missing address or for no lines. */
  function Remove(b: Builder, address: string): (r: Builder)
    ensures r.draft == b.draft
    ensures b.payments == None ==> r == b
    ensures address !in Addresses(Lines(b)) ==> r == b
    ensures address in Addresses(Lines(b)) ==>
      var i := FirstIndex(Lines(b), address);
      r.payments == Some(Lines(b)[..i] + Lines(b)[i + 1..])
  {
    match b.payments
    case None => b
    case Some(ps) => if |ps| > 0 then b.(payments := Some(RemoveFirst(ps, address))) else b
  }

  /** `Final()`: the draft takes the current lines; nothing else changes. */
  function Final(b: Builder): (r: Builder)
    ensures r.payments == b.payments
    ensures r.draft.payments == b.payments
    ensures r.draft.passphrase == b.draft.passphrase
    ensures r.draft.withdrawal == b.draft.withdrawal && r.draft.timeToLive == b.draft.timeToLive
  {
    b.(draft := b.draft.(payments := b.payments))
  }

  /** `Sign(password)`: finalises, then sets the passphrase. */
  function Sign(b: Builder, password: string): (r: Builder)
    ensures r.payments == b.payments
    ensures r.draft.payments == b.payments
    ensures r.draft.passphrase == Some(password)
    ensures r.draft.withdrawal == b.draft.withdrawal && r.draft.timeToLive == b.draft.timeToLive
  {
    var f := Final(b);
    f.(draft := f.draft.(passphrase := Some(password)))
  }

  /** Signing is finalising plus the passphrase: finalising before or after
      signing changes nothing. */
  lemma SignIsFinalWithPassphrase(b: Builder, password: string)
    ensures Sign(Final(b), password) == Sign(b, password)
    ensures Final(Sign(b, password)) == Sign(b, password)
    ensures Sign(b, password).draft == Final(b).draft.(passphrase := Some(password))
  {
  }

  /** A finalised draft is a snapshot: a later `Add` of a new recipient is
      not seen by the draft until the next `Final`. */
  lemma FinalIsSnapshot(b: Builder, address: string, amountAda: real, toLovelace: real -> Int32)
    requires address !in Addresses(Lines(b))
    ensures Add(Final(b), address, amountAda, toLovelace).draft.payments == b.payments
    ensures Lines(Add(Final(b), address, amountAda, toLovelace)) != Lines(b)
  {
    assert |Lines(Add(Final(b), address, amountAda, toLovelace))| == |Lines(b)| + 1;
  }

  /** `Total()`: the plain sum of the lines' quantities in lovelace (no
      conversion to ADA happens), zero for no lines. */
  method Total(b: Builder) returns (total: int)
    ensures total == Sum(Lines(b))
    ensures Lines(b) == [] ==> total == 0
  {
    total := 0;
    match b.payments {
      case None =>
      case Some(ps) =>
        if |ps| > 0 {
          var i := 0;
          while i < |ps|
            invariant 0 <= i <= |ps|
            invariant total == Sum(ps[..i])
          {
            assert ps[..i + 1][..i] == ps[..i];
            total := total + ps[i].amount.quantity;
            i := i + 1;
          }
          assert ps[..|ps|] == ps;
        }
    }
  }

  lemma {:induction false} SumAppend(ps: seq<Payment>, p: Payment)
    ensures Sum(ps + [p]) == Sum(ps) + p.amount.quantity
  {
    assert (ps + [p])[..|ps|] == ps;
  }

  /** Two line lists that agree on every quantity but the one at `k` differ
      in sum by exactly that quantity's change. */
  lemma {:induction false} SumChangeAt(ps: seq<Payment>, qs: seq<Payment>, k: nat)
    requires |ps| == |qs| && k < |ps|
    requires forall j :: 0 <= j < |ps| && j != k ==> ps[j].amount.quantity == qs[j].amount.quantity
    ensures Sum(qs) == Sum(ps) + qs[k].amount.quantity - ps[k].amount.quantity
  {
    var n := |ps|;
    if k == n - 1 {
      SumSameQuantities(ps[..n - 1], qs[..n - 1]);
    } else {
      SumChangeAt(ps[..n - 1], qs[..n - 1], k);
    }
  }

  lemma {:induction false} SumSameQuantities(ps: seq<Payment>, qs: seq<Payment>)
    requires |ps| == |qs|
    requires forall j :: 0 <= j < |ps| ==> ps[j].amount.quantity == qs[j].amount.quantity
    ensures Sum(ps) == Sum(qs)
  {
    if |ps| > 0 {
      SumSameQuantities(ps[..|ps| - 1], qs[..|qs| - 1]);
    }
  }

  /** With distinct addresses and no `Int32` overflow in the merged line,
      `Add` raises the sum of the lines by exactly the converted amount. */
  lemma AddRaisesSum(b: Builder, address: string, amountAda: real, toLovelace: real -> Int32)
    requires Distinct(Lines(b))
    requires forall i :: 0 <= i < |Lines(b)| && Lines(b)[i].address == address ==>
      MinInt32 <= Lines(b)[i].amount.quantity + toLovelace(amountAda) <= MaxInt32
    ensures Sum(Lines(Add(b, address, amountAda, toLovelace))) == Sum(Lines(b)) + toLovelace(amountAda)
  {
    var ps := Lines(b);
    var d := toLovelace(amountAda);
    var r := Lines(Add(b, address, amountAda, toLovelace));
    if address in Addresses(ps) {
      var k := FirstIndex(ps, address);
      assert r == Credit(ps, address, d);
      assert r[k].amount.quantity == ps[k].amount.quantity + d;
      SumChangeAt(ps, r, k);
    } else {
      SumAppend(ps, NewLine(address, d));
    }
  }

  /** With distinct addresses, `Add` of a present recipient changes exactly
      its one line, by exactly the converted amount when that does not
      overflow. */
  lemma AddCreditsOneLine(b: Builder, address: string, amountAda: real, toLovelace: real -> Int32)
    requires Distinct(Lines(b)) && address in Addresses(Lines(b))
    requires var k := FirstIndex(Lines(b), address);
      MinInt32 <= Lines(b)[k].amount.quantity + toLovelace(amountAda) <= MaxInt32
    ensures var k := FirstIndex(Lines(b), address);
      var r := Lines(Add(b, address, amountAda, toLovelace));
      && |r| == |Lines(b)|
      && r[k].amount.quantity == Lines(b)[k].amount.quantity + toLovelace(amountAda)
      && forall j :: 0 <= j < |r| && j != k ==> r[j] == Lines(b)[j]
  {
  }

  /** `Add` keeps the addresses pairwise distinct. */
  lemma AddKeepsDistinct(b: Builder, address: string, amountAda: real, toLovelace: real -> Int32)
    requires Distinct(Lines(b))
    ensures Distinct(Lines(Add(b, address, amountAda, toLovelace)))
  {
  }

  /** `Remove` keeps the addresses pairwise distinct. */
  lemma RemoveKeepsDistinct(b: Builder, address: string)
    requires Distinct(Lines(b))
    ensures Distinct(Lines(Remove(b, address)))
  {
    var ps := Lines(b);
    if address in Addresses(ps) {
      var i := FirstIndex(ps, address);
      DeleteKeepsDistinct(ps, i);
      assert Lines(Remove(b, address)) == ps[..i] + ps[i + 1..];
    } else {
      assert Remove(b, address) == b;
    }
  }

  lemma DeleteKeepsDistinct(ps: seq<Payment>, i: nat)
    requires i < |ps| && Distinct(ps)
    ensures Distinct(ps[..i] + ps[i + 1..])
  {
    var r := ps[..i] + ps[i + 1..];
    forall j, k | 0 <= j < k < |r|
      ensures r[j].address != r[k].address
    {
      var j' := if j < i then j else j + 1;
      var k' := if k < i then k else k + 1;
      assert r[j] == ps[j'] && r[k] == ps[k'];
    }
  }

  /** Adding a recipient that is not yet present and removing it again gives
      back the builder it started from, when it had a line list. */
  lemma AddThenRemoveRestores(b: Builder, address: string, amountAda: real, toLovelace: real -> Int32)
    requires b.payments.Some?
    requires address !in Addresses(Lines(b))
    ensures Remove(Add(b, address, amountAda, toLovelace), address) == b
  {
    var ps := Lines(b);
    var r := Lines(Add(b, address, amountAda, toLovelace));
    assert Addresses(r) == Addresses(ps) + [address] by {
      assert Addresses(r)[|ps|] == address;
    }
    assert FirstIndex(r, address) == |ps|;
    assert r[..|ps|] == ps;
    assert r[|ps| + 1..] == [];
    assert RemoveFirst(r, address) == ps;
  }

  /** Applies one edit. */
  function Apply(b: Builder, e: Edit, toLovelace: real -> Int32): Builder
  {
    match e
    case AddLine(a, x) => Add(b, a, x, toLovelace)
    case RemoveLine(a) => Remove(b, a)
  }

  /** Applies edits in order. */
  function Replay(b: Builder, es: seq<Edit>, toLovelace: real -> Int32): Builder
    decreases |es|
  {
    if |es| == 0 then b else Replay(Apply(b, es[0], toLovelace), es[1..], toLovelace)
  }

  /** Any sequence of `Add` and `Remove` keeps the addresses pairwise
      distinct. */
  lemma {:induction false} ReplayKeepsDistinct(b: Builder, es: seq<Edit>, toLovelace: real -> Int32)
    requires Distinct(Lines(b))
    ensures Distinct(Lines(Replay(b, es, toLovelace)))
    decreases |es|
  {
    if |es| > 0 {
      var b' := Apply(b, es[0], toLovelace);
      match es[0] {
        case AddLine(a, x) => AddKeepsDistinct(b, a, x, toLovelace);
        case RemoveLine(a) => RemoveKeepsDistinct(b, a);
      }
      ReplayKeepsDistinct(b', es[1..], toLovelace);
    }
  }

  /** A new builder has no lines, so any sequence of edits from it keeps
      the addresses pairwise distinct. */
  lemma ReplayFromNewKeepsDistinct(es: seq<Edit>, toLovelace: real -> Int32)
    ensures Distinct(Lines(Replay(New(), es, toLovelace)))
  {
    ReplayKeepsDistinct(New(), es, toLovelace);
  }
}

=== FILE: common.dfy ===
/**
  Small building blocks shared by every module of the wallet-client model:
  nullable references, the C# `Int32` range with its unchecked wrap-around,
  and the result of running code that may throw.
 */
module Common {

  /** A C# reference that may be `null`. */
  datatype Option<+T> = None | Some(value: T)

  const MinInt32: int := -0x8000_0000
  const MaxInt32: int := 0x7FFF_FFFF

  /** Values of the C# `Int32` type. */
  type Int32 = x: int | MinInt32 <= x <= MaxInt32

  /** Unchecked 32-bit two's-complement wrap-around, which is what C# `+=` on
      an `Int32` does outside a `checked` context. */
  function Wrap32(x: int): (r: Int32)
    ensures MinInt32 <= x <= MaxInt32 ==> r == x
    ensures (r - x) % 0x1_0000_0000 == 0
  {
    (x - MinInt32) % 0x1_0000_0000 + MinInt32
  }

  /** The result of running C# code that may raise an exception which nothing
      catches: either the value it returned, or the fact that it threw. */
  datatype Run<+T> = Returned(value: T) | Threw
}

=== FILE: data.dfy ===
/**
  The record shapes of `WalletAPI.Data` that the client's logic reads or
  writes, with the default values their C# field initialisers give them.
  A reference-typed field that may be `null` is an `Option`. Fields that are
  only ever filled in by the JSON deserialiser and never read by the client
  are left out.
 */
module Data {
  import opened Common

  /** `Data.Error`: the wallet service's error report. */
  datatype Error = Error(code: string, message: string)

  /** `Data.Denomination`: an amount with its unit. */
  datatype Denomination = Denomination(quantity: Int32, unit: string)

  /** `Data.Height`: a quantity with its unit (blocks, seconds, ...). */
  datatype Height = Height(quantity: Int32, unit: string)

  /** `Data.Payments`: one payment line of a transaction draft. */
  datatype Payment = Payment(address: string, amount: Denomination)

  /** `Data.Transaction.Draft`: what is sent for fee estimation or submission. */
  datatype Draft = Draft(
    passphrase: Option<string>,
    payments: Option<seq<Payment>>,
    withdrawal: string,
    timeToLive: Height)

  /** `Data.Balance`. */
  datatype Balance = Balance(
    available: Option<Denomination>,
    reward: Option<Denomination>,
    total: Option<Denomination>)

  /** `Data.Enumerations.Balances`. */
  datatype Balances = Available | Rewards | Total

  /** `Data.Wallet`. */
  datatype Wallet = Wallet(
    id: Option<string>,
    name: Option<string>,
    addressPoolGap: Int32,
    balance: Option<Balance>,
    error: Option<Error>)

  /** `Data.WalletList`. */
  datatype WalletList = WalletList(wallets: Option<seq<Wallet>>, error: Option<Error>)

  /** `Data.WalletOptions`: the body of a wallet creation request. */
  datatype WalletOptions = WalletOptions(
    name: Option<string>,
    mnemonicSentence: Option<seq<string>>,
    passphrase: Option<string>,
    addressPoolGap: Int32)

  /** `Data.Address`. */
  datatype AddressInfo = AddressInfo(id: Option<string>, state: Option<string>)

  /** `Data.AddressList`. */
  datatype AddressList = AddressList(addresses: Option<seq<AddressInfo>>, error: Option<Error>)

  /** `Data.Transaction.Fee`. */
  datatype Fee = Fee(
    estimatedMin: Option<Denomination>,
    estimatedMax: Option<Denomination>,
    deposit: Option<Denomination>,
    error: Option<Error>)

  /** `Data.Transaction.Information`. */
  datatype Information = Information(
    id: Option<string>,
    amount: Option<Denomination>,
    fee: Option<Denomination>,
    depth: Height,
    status: Option<string>,
    error: Option<Error>)

  /** `Data.Transaction.List`. */
  datatype TransactionList = TransactionList(
    information: Option<seq<Information>>,
    error: Option<Error>)

  /** The numeric values of the `Balances` enumeration. */
  function BalancesValue(b: Balances): (v: int)
    ensures 0 <= v <= 2
  {
    match b
    case Available => 0
    case Rewards => 1
    case Total => 2
  }

  /** Distinct members of the enumeration have distinct values. */
  lemma BalancesValueInjective(a: Balances, b: Balances)
    ensures BalancesValue(a) == BalancesValue(b) ==> a == b
  {
  }

  /** `new Denomination()`: zero lovelace. */
  function NewDenomination(): (d: Denomination)
    ensures d.quantity == 0
    ensures d.unit == "lovelace"
  {
    Denomination(0, "lovelace")
  }

  /** `new Draft()`: no passphrase and no payments yet, withdrawing from the
      wallet itself, with a time to live of 500 seconds. */
  function NewDraft(): (d: Draft)
    ensures d.passphrase == None && d.payments == None
    ensures d.withdrawal == "self"
    ensures d.timeToLive.quantity == 500 && d.timeToLive.unit == "second"
  {
    Draft(None, None, "self", Height(500, "second"))
  }

  /** `new WalletOptions()`: an address pool gap of 20 and nothing else set. */
  function NewWalletOptions(): (o: WalletOptions)
    ensures o.addressPoolGap == 20
    ensures o.name == None && o.mnemonicSentence == None && o.passphrase == None
  {
    WalletOptions(None, None, None, 20)
  }

  /** `new Wallet()`: every reference null and the pool gap zero. */
  function NewWallet(): (w: Wallet)
    ensures w.id == None && w.name == None && w.balance == None && w.error == None
    ensures w.addressPoolGap == 0
  {
    Wallet(None, None, 0, None, None)
  }

  /** `new WalletList()`. */
  function NewWalletList(): (l: WalletList)
    ensures l.wallets == None && l.error == None
  {
    WalletList(None, None)
  }

  /** `new AddressList()`. */
  function NewAddressList(): (l: AddressList)
    ensures l.addresses == None && l.error == None
  {
    AddressList(None, None)
  }

  /** `new Fee()`. */
  function NewFee(): (f: Fee)
    ensures f.estimatedMin == None && f.estimatedMax == None && f.deposit == None
    ensures f.error == None
  {
    Fee(None, None, None, None)
  }

  /** `new Information()`: a depth of zero blocks and nothing else set. */
  function NewInformation(): (t: Information)
    ensures t.depth.quantity == 0 && t.depth.unit == "block"
    ensures t.id == None && t.amount == None && t.fee == None && t.status == None
    ensures t.error == None
  {
    Information(None, None, None, Height(0, "block"), None, None)
  }

  /** `new Transaction.List()`. */
  function NewTransactionList(): (l: TransactionList)
    ensures l.information == None && l.error == None
  {
    TransactionList(None, None)
  }
}

=== FILE: protocol.dfy ===
/**
  The client's single-string result protocol.

  Every HTTP call of `WalletAPI.Client` returns one string: the response body
  when the service answered with a success status, or otherwise a failure
  envelope `"!<ERROR>" | status | body | payload` joined by `'|'`. Every
  resource operation then classifies that string by the literal prefix
  `"!<ERROR>"` and, on failure, deserialises field 2 as an `Error`.

  The HTTP exchange itself is the abstract `Response`; JSON deserialisation
  is an abstract function `string -> Json<T>` supplied by the caller.
 */
module Protocol {
  import opened Common
  import opened Strings
  import opened Data

  /** `Client.errorFlag`. */
  const ErrorFlag: string := "!<ERROR>"
  /** `Client.successFlag`. */
  const SuccessFlag: string := "000"
  /** The payload field of a failed DELETE or plain GET. */
  const NoPayload: string := "<no payload>"
  /** The envelope's field delimiter. */
  const Delimiter: char := '|'

  /** The error record every resource operation attaches on success. */
  const SuccessError: Error := Error(SuccessFlag, "")

  /** The five request methods of `Client`. */
  datatype Verb = Delete | Get | GetQuery(query: string) | Post(json: string) | Put(json: string)

  /** What a resource operation asks of the client: the parameter it passes
      to `UrlBuilder` and the request method with its payload or query. */
  datatype Request = Request(parameter: string, verb: Verb)

  /** What the HTTP exchange produced: a response with its success bit,
      status name and body text, or a transport exception (network error),
      which the client does not catch. */
  datatype Response = Answered(isSuccess: bool, status: string, body: string) | Unreachable

  /** What `JsonConvert.DeserializeObject` produces: a value, `null`, or an
      exception for text it cannot read. */
  datatype Json<+T> = Parsed(value: T) | Null | Invalid

  /** The payload echoed in field 3 of a failure envelope. */
  function Payload(v: Verb): string
  {
    match v
    case Delete => NoPayload
    case Get => NoPayload
    case GetQuery(q) => q
    case Post(j) => j
    case Put(j) => j
  }

  /** The failure envelope: flag, status, body and payload joined by `'|'`. */
  function Envelope(status: string, body: string, payload: string): (r: string)
    ensures StartsWith(r, ErrorFlag)
    ensures Count(r, Delimiter) >= 3
    ensures r == Join([ErrorFlag, status, body, payload], Delimiter)
  {
    var r := ErrorFlag + "|" + status + "|" + body + "|" + payload;
    assert r[..|ErrorFlag|] == ErrorFlag;
    JoinFour(ErrorFlag, status, body, payload, Delimiter);
    CountJoin([ErrorFlag, status, body, payload], Delimiter);
    r
  }

  /** One call of `Client.Delete`, `Get`, `Get(query)`, `Post` or `Put`:
      the body unchanged on success, the failure envelope otherwise, and a
      propagated exception when the transport failed. */
  function Call(v: Verb, resp: Response): (r: Run<string>)
    ensures r.Threw? <==> resp.Unreachable?
    ensures resp.Answered? && resp.isSuccess ==> r == Returned(resp.body)
    ensures resp.Answered? && !resp.isSuccess ==>
      r.Returned? && StartsWith(r.value, ErrorFlag)
      && r.value == Join([ErrorFlag, resp.status, resp.body, Payload(v)], Delimiter)
  {
    match resp
    case Unreachable => Threw
    case Answered(ok, status, body) =>
      if ok then Returned(body) else Returned(Envelope(status, body, Payload(v)))
  }

  /** When no field contains the delimiter, splitting a failed call's result
      gives back exactly the four fields, and the payload field is the one
      the request method echoes. */
  lemma FailedCallFields(v: Verb, resp: Response)
    requires resp.Answered? && !resp.isSuccess
    requires Delimiter !in resp.status && Delimiter !in resp.body && Delimiter !in Payload(v)
    ensures Call(v, resp).Returned?
    ensures Split(Call(v, resp).value, Delimiter) == [ErrorFlag, resp.status, resp.body, Payload(v)]
    ensures v.Delete? || v.Get? ==> Split(Call(v, resp).value, Delimiter)[3] == NoPayload
    ensures v.GetQuery? ==> Split(Call(v, resp).value, Delimiter)[3] == v.query
    ensures v.Post? || v.Put? ==> Split(Call(v, resp).value, Delimiter)[3] == v.json
  {
    var fields := [ErrorFlag, resp.status, resp.body, Payload(v)];
    assert Delimiter !in ErrorFlag;
    SplitJoin(fields, Delimiter);
  }

  /** Fields 0 to 2 of an envelope are recovered whatever the payload holds,
      as long as the status and body hold no delimiter. */
  lemma EnvelopeLeadingFields(status: string, body: string, payload: string)
    requires Delimiter !in status && Delimiter !in body
    ensures |Split(Envelope(status, body, payload), Delimiter)| >= 4
    ensures Split(Envelope(status, body, payload), Delimiter)[..3] == [ErrorFlag, status, body]
  {
    assert Delimiter !in ErrorFlag;
    var tail := body + [Delimiter] + payload;
    SplitAfterField(body, payload, Delimiter);
    SplitAfterField(status, tail, Delimiter);
    SplitAfterField(ErrorFlag, status + [Delimiter] + tail, Delimiter);
    assert Envelope(status, body, payload) == ErrorFlag + [Delimiter] + (status + [Delimiter] + tail);
  }

  /** How a resource operation reads a raw result: a flagged failure with its
      field 2, a flagged text too short to have a field 2 (the C# indexing
      throws), or a plain success body. */
  datatype Classified = Flagged(errorField: string) | Truncated | Plain(body: string)

  function Classify(raw: string): (c: Classified)
    ensures c.Plain? <==> !StartsWith(raw, ErrorFlag)
    ensures c.Plain? ==> c.body == raw
    ensures c.Truncated? <==> StartsWith(raw, ErrorFlag) && Count(raw, Delimiter) < 2
    ensures c.Flagged? ==> |Split(raw, Delimiter)| >= 3 && c.errorField == Split(raw, Delimiter)[2]
    ensures c.Flagged? ==> Delimiter !in c.errorField
  {
    if !StartsWith(raw, ErrorFlag) then Plain(raw)
    else
      var fields := Split(raw, Delimiter);
      if |fields| < 3 then Truncated else Flagged(fields[2])
  }

  /** A failure envelope is always read as flagged, never as truncated, and
      when the status and body hold no delimiter its field 2 is the body. */
  lemma ClassifyEnvelope(status: string, body: string, payload: string)
    ensures Classify(Envelope(status, body, payload)).Flagged?
    ensures Delimiter !in status && Delimiter !in body ==>
      Classify(Envelope(status, body, payload)) == Flagged(body)
  {
    if Delimiter !in status && Delimiter !in body {
      EnvelopeLeadingFields(status, body, payload);
    }
  }

  /** A raw result shorter than the flag is always read as success. */
  lemma ShortResultIsPlain(raw: string)
    requires |raw| < |ErrorFlag|
    ensures Classify(raw) == Plain(raw)
  {
  }

  /** The inherited ambiguity: a success body that happens to begin with the
      flag is read as a failure (or makes the operation throw). */
  lemma FlagLikeSuccessBodyIsNotPlain(v: Verb, body: string)
    requires StartsWith(body, ErrorFlag)
    ensures Call(v, Answered(true, "OK", body)) == Returned(body)
    ensures !Classify(body).Plain?
  {
  }

  /** Reads field 2 as an `Error`: a `null` error object is kept as `null`,
      unreadable text throws. */
  function ReadError(field: string, parseError: string -> Json<Error>): (r: Run<Option<Error>>)
    ensures r.Threw? <==> parseError(field).Invalid?
    ensures parseError(field).Parsed? ==> r == Returned(Some(parseError(field).value))
    ensures parseError(field).Null? ==> r == Returned(None)
  {
    match parseError(field)
    case Parsed(e) => Returned(Some(e))
    case Null => Returned(None)
    case Invalid => Threw
  }

  /** The explicitly tagged view of a resource operation's result: the
      decoded body (`None` for a JSON `null`), the service's error (`None`
      for a `null` error object), or an exception that escapes. */
  datatype Outcome<+T> = Success(value: Option<T>) | Failure(error: Option<Error>) | Fault

  /** The decode template shared by every resource operation. */
  function Decode<T>(raw: string, parseError: string -> Json<Error>, parseBody: string -> Json<T>): (o: Outcome<T>)
    ensures o.Success? ==> !StartsWith(raw, ErrorFlag)
    ensures o.Failure? ==> StartsWith(raw, ErrorFlag)
    ensures !StartsWith(raw, ErrorFlag) && parseBody(raw).Parsed? ==> o == Success(Some(parseBody(raw).value))
    ensures !StartsWith(raw, ErrorFlag) && parseBody(raw).Null? ==> o == Success(None)
    ensures Classify(raw).Flagged? && !parseError(Classify(raw).errorField).Invalid? ==>
      o == Failure(ReadError(Classify(raw).errorField, parseError).value)
    ensures Classify(raw).Flagged? && parseError(Classify(raw).errorField).Null? ==> o == Failure(None)
    ensures o.Fault? <==>
      Classify(raw).Truncated?
      || (Classify(raw).Flagged? && parseError(Classify(raw).errorField).Invalid?)
      || (Classify(raw).Plain? && parseBody(raw).Invalid?)
  {
    match Classify(raw)
    case Truncated => Fault
    case Flagged(f) =>
      (match ReadError(f, parseError)
       case Returned(e) => Failure(e)
       case Threw => Fault)
    case Plain(body) =>
      (match parseBody(body)
       case Parsed(x) => Success(Some(x))
       case Null => Success(None)
       case Invalid => Fault)
  }

  /** End to end, failure: a call the service rejects decodes to the error
      that its body parses to. */
  lemma DecodeRejectedCall<T>(v: Verb, resp: Response, parseError: string -> Json<Error>,
                              parseBody: string -> Json<T>, e: Error)
    requires resp.Answered? && !resp.isSuccess
    requires Delimiter !in resp.status && Delimiter !in resp.body
    requires parseError(resp.body) == Parsed(e)
    ensures Call(v, resp).Returned?
    ensures Decode(Call(v, resp).value, parseError, parseBody) == Failure(Some(e))
  {
    ClassifyEnvelope(resp.status, resp.body, Payload(v));
  }

  /** End to end, success: a body that does not begin with the flag decodes
      to what the deserialiser reads from it. */
  lemma DecodeAcceptedCall<T>(v: Verb, resp: Response, parseError: string -> Json<Error>,
                              parseBody: string -> Json<T>, x: T)
    requires resp.Answered? && resp.isSuccess
    requires !StartsWith(resp.body, ErrorFlag)
    requires parseBody(resp.body) == Parsed(x)
    ensures Decode(Call(v, resp).value, parseError, parseBody) == Success(Some(x))
  {
  }

  /** The shape of an operation returning one object with an `error` field:
      on success the decoded object with the success error attached (a
      `null` object makes the assignment throw); on failure a fresh object
      with only the error set. */
  function ObjectShape<T, S>(o: Outcome<T>, empty: S, fromBody: T -> S,
                            withError: (S, Option<Error>) -> S): (r: Run<S>)
    ensures r.Threw? <==> o.Fault? || o == Success(None)
    ensures o.Failure? ==> r == Returned(withError(empty, o.error))
    ensures o.Success? && o.value.Some? ==> r == Returned(withError(fromBody(o.value.value), Some(SuccessError)))
  {
    match o
    case Success(Some(x)) => Returned(withError(fromBody(x), Some(SuccessError)))
    case Success(None) => Threw
    case Failure(e) => Returned(withError(empty, e))
    case Fault => Threw
  }

  /** The shape of an operation returning a list object: the decoded array
      (possibly `null`) is stored in a fresh list object with the success
      error; on failure only the error is set. */
  function ListShape<T, S>(o: Outcome<T>, empty: S, withItems: (S, Option<T>) -> S,
                          withError: (S, Option<Error>) -> S): (r: Run<S>)
    ensures r.Threw? <==> o.Fault?
    ensures o.Failure? ==> r == Returned(withError(empty, o.error))
    ensures o.Success? ==> r == Returned(withError(withItems(empty, o.value), Some(SuccessError)))
  {
    match o
    case Success(x) => Returned(withError(withItems(empty, x), Some(SuccessError)))
    case Failure(e) => Returned(withError(empty, e))
    case Fault => Threw
  }

  /** The shape of an operation that returns only an `Error` (`Delete`,
      `Cancel`): the success error, or the service's error. The success body
      is never deserialised. */
  function ErrorOnly(raw: string, parseError: string -> Json<Error>): (r: Run<Option<Error>>)
    ensures !StartsWith(raw, ErrorFlag) ==> r == Returned(Some(SuccessError))
    ensures Classify(raw).Flagged? ==> r == ReadError(Classify(raw).errorField, parseError)
    ensures Classify(raw).Truncated? ==> r.Threw?
  {
    match Classify(raw)
    case Plain(_) => Returned(Some(SuccessError))
    case Flagged(f) => ReadError(f, parseError)
    case Truncated => Threw
  }

  /** Running a request: the HTTP call and then the operation's decoding;
      a transport exception propagates. */
  function Exchange<S>(v: Verb, resp: Response, decode: string -> Run<S>): (r: Run<S>)
    ensures resp.Unreachable? ==> r.Threw?
    ensures resp.Answered? ==> r == decode(Call(v, resp).value)
  {
    match Call(v, resp)
    case Threw => Threw
    case Returned(raw) => decode(raw)
  }
}

=== FILE: strings.dfy ===
/**
  The string operations of the .NET base library that the client relies on,
  written out over `seq<char>`: ordinal prefix and suffix tests,
  `String.Split(char)`, joining with a delimiter, and the decimal rendering of
  a non-negative integer.
 */
module Strings {

  /** Ordinal `s.StartsWith(prefix)`; also the client's
      `s.Length >= p.Length && s.Substring(0, p.Length) == p` test. */
  predicate StartsWith(s: string, prefix: string) {
    |prefix| <= |s| && s[..|prefix|] == prefix
  }

  /** Ordinal `s.EndsWith(suffix)`. */
  predicate EndsWith(s: string, suffix: string) {
    |suffix| <= |s| && s[|s| - |suffix|..] == suffix
  }

  /** Number of occurrences of `c` in `s`. */
  function Count(s: string, c: char): nat
  {
    if |s| == 0 then 0 else (if s[0] == c then 1 else 0) + Count(s[1..], c)
  }

  lemma {:induction false} CountZeroIffAbsent(s: string, c: char)
    ensures Count(s, c) == 0 <==> c !in s
  {
    if |s| > 0 {
      CountZeroIffAbsent(s[1..], c);
      assert s == [s[0]] + s[1..];
    }
  }

  lemma {:induction false} CountConcat(a: string, b: string, c: char)
    ensures Count(a + b, c) == Count(a, c) + Count(b, c)
  {
    if |a| > 0 {
      assert (a + b)[1..] == a[1..] + b;
      CountConcat(a[1..], b, c);
    } else {
      assert a + b == b;
    }
  }

  /** `s.Split(d)`: the pieces between occurrences of `d`, empty pieces kept.
      There is always one piece more than there are delimiters, and no piece
      contains the delimiter. */
  function Split(s: string, d: char): (r: seq<string>)
    ensures |r| == Count(s, d) + 1
    ensures forall i :: 0 <= i < |r| ==> d !in r[i]
  {
    if |s| == 0 then [""]
    else
      var rest := Split(s[1..], d);
      if s[0] == d then [""] + rest
      else [[s[0]] + rest[0]] + rest[1..]
  }

  /** `String.Join(d, fields)`. */
  function Join(fields: seq<string>, d: char): string
    requires |fields| > 0
  {
    if |fields| == 1 then fields[0] else fields[0] + [d] + Join(fields[1..], d)
  }

  /** Joining three fields. */
  lemma JoinThree(a: string, b: string, c: string, d: char)
    ensures Join([a, b, c], d) == a + [d] + b + [d] + c
  {
    assert [a, b, c][1..] == [b, c];
    assert [b, c][1..] == [c];
    assert Join([b, c], d) == b + [d] + c;
    assert Join([a, b, c], d) == a + [d] + (b + [d] + c);
  }

  /** Joining four fields. */
  lemma JoinFour(a: string, b: string, c: string, e: string, d: char)
    ensures Join([a, b, c, e], d) == a + [d] + b + [d] + c + [d] + e
  {
    assert [a, b, c, e][1..] == [b, c, e];
    JoinThree(b, c, e, d);
  }

  /** A join holds at least one delimiter between each two fields. */
  lemma {:induction false} CountJoin(fields: seq<string>, d: char)
    requires |fields| > 0
    ensures Count(Join(fields, d), d) >= |fields| - 1
  {
    if |fields| > 1 {
      CountJoin(fields[1..], d);
      CountConcat(fields[0] + [d], Join(fields[1..], d), d);
      CountConcat(fields[0], [d], d);
    }
  }

  lemma SplitWithoutDelimiter(s: string, d: char)
    requires d !in s
    ensures Split(s, d) == [s]
  {
    CountZeroIffAbsent(s, d);
    JoinSplit(s, d);
  }

  /** Splitting `a + d + b` where `a` holds no delimiter yields `a` followed
      by the pieces of `b`. */
  lemma {:induction false} SplitAfterField(a: string, b: string, d: char)
    requires d !in a
    ensures Split(a + [d] + b, d) == [a] + Split(b, d)
  {
    if |a| == 0 {
      assert a + [d] + b == [d] + b;
      assert ([d] + b)[1..] == b;
    } else {
      var s := a + [d] + b;
      assert s[0] == a[0];
      assert s[1..] == a[1..] + [d] + b;
      SplitAfterField(a[1..], b, d);
      assert [a[0]] + a[1..] == a;
    }
  }

  /** Joining delimiter-free fields and splitting again gives the fields back. */
  lemma {:induction false} SplitJoin(fields: seq<string>, d: char)
    requires |fields| > 0
    requires forall i :: 0 <= i < |fields| ==> d !in fields[i]
    ensures Split(Join(fields, d), d) == fields
  {
    if |fields| == 1 {
      SplitWithoutDelimiter(fields[0], d);
    } else {
      SplitJoin(fields[1..], d);
      SplitAfterField(fields[0], Join(fields[1..], d), d);
      assert [fields[0]] + fields[1..] == fields;
    }
  }

  /** Splitting and joining again gives the original string back. */
  lemma {:induction false} JoinSplit(s: string, d: char)
    ensures Join(Split(s, d), d) == s
  {
    if |s| > 0 {
      var rest := Split(s[1..], d);
      JoinSplit(s[1..], d);
      if s[0] == d {
        assert ([""] + rest)[1..] == rest;
        assert s == [d] + s[1..];
      } else {
        var r := [[s[0]] + rest[0]] + rest[1..];
        if |rest| == 1 {
          assert Join(r, d) == [s[0]] + rest[0];
        } else {
          assert r[1..] == rest[1..];
          assert Join(r, d) == [s[0]] + rest[0] + [d] + Join(rest[1..], d);
        }
        assert s == [s[0]] + s[1..];
      }
    }
  }

  /** The decimal digit for `n`. */
  function Digit(n: nat): char
    requires n < 10
  {
    "0123456789"[n]
  }

  /** The value of a decimal digit character. */
  function DigitValue(c: char): nat
  {
    if '0' <= c <= '9' then (c as int - '0' as int) else 0
  }

  /** `Int32.ToString()` for a non-negative value: its decimal digits, most
      significant first, with no sign and no leading zero. */
  function DecimalString(n: nat): string
  {
    if n < 10 then [Digit(n)] else DecimalString(n / 10) + [Digit(n % 10)]
  }

  /** Reads a string of decimal digits back as a number. */
  function DecimalValue(s: string): nat
  {
    if |s| == 0 then 0 else DecimalValue(s[..|s| - 1]) * 10 + DigitValue(s[|s| - 1])
  }

  /** The decimal rendering is non-empty, made of digits only, has no
      leading zero (except for zero itself), and reads back as the number it
      renders. */
  lemma {:induction false} DecimalRoundTrip(n: nat)
    ensures |DecimalString(n)| > 0
    ensures forall i :: 0 <= i < |DecimalString(n)| ==> '0' <= DecimalString(n)[i] <= '9'
    ensures n > 0 ==> DecimalString(n)[0] != '0'
    ensures DecimalValue(DecimalString(n)) == n
  {
    var s := DecimalString(n);
    if n < 10 {
      assert DigitValue(Digit(n)) == n;
    } else {
      DecimalRoundTrip(n / 10);
      var p := DecimalString(n / 10);
      assert s[..|s| - 1] == p;
      assert s[0] == p[0];
      assert DigitValue(Digit(n % 10)) == n % 10;
    }
  }
}

=== FILE: tools.dfy ===
/**
  `WalletAPI.Tools`: the word count and the lovelace-to-ADA conversion.
 */
module Tools {
  import opened Common
  import opened Strings

  const LovelacePerAda: int := 1000000

  /** `ToADA(amount)`: the exact decimal quotient by one million. */
  function ToAda(amount: Int32): (ada: real)
    ensures ada * LovelacePerAda as real == amount as real
    ensures amount >= 0 ==> ada >= 0.0
  {
    amount as real / LovelacePerAda as real
  }

  /** `WordCount(sentence)`: zero for `null` (the exception is caught) and for
      the empty string, otherwise the number of pieces `Split(' ')` yields,
      so every space, leading, trailing or doubled, starts a new word. */
  function WordCount(sentence: Option<string>): (n: nat)
    ensures sentence == None || sentence == Some("") ==> n == 0
    ensures sentence.Some? && sentence.value != "" ==> n == Count(sentence.value, ' ') + 1
  {
    match sentence
    case None => 0
    case Some(s) => if s == "" then 0 else |Split(s, ' ')|
  }

  /** A non-empty text without spaces is one word. */
  lemma OneWord(s: string)
    requires s != "" && ' ' !in s
    ensures WordCount(Some(s)) == 1
  {
    CountZeroIffAbsent(s, ' ');
  }

  /** Joining two non-empty texts with one space adds their word counts. */
  lemma WordCountJoin(a: string, b: string)
    requires a != "" && b != ""
    ensures WordCount(Some(a + " " + b)) == WordCount(Some(a)) + WordCount(Some(b))
  {
    CountConcat(a + " ", b, ' ');
    CountConcat(a, " ", ' ');
  }
}

=== FILE: transactions.dfy ===
/**
  `WalletAPI.Transaction` resource operations: cancel, estimate the fee of a
  draft, look up, list within a period, and send. Each is its request and
  its decoding of the client's raw result.
 */
module Transactions {
  import opened Common
  import opened Strings
  import opened Data
  import P = Protocol

  /** `"wallets/" + walletID + "/transactions"`: the target of `List` and `Send`. */
  function Collection(walletId: string): (p: string)
    ensures StartsWith(p, "wallets/" + walletId) && EndsWith(p, "/transactions")
    ensures |p| == |"wallets/"| + |walletId| + |"/transactions"|
    ensures p[|"wallets/"|..|p| - |"/transactions"|] == walletId
  {
    var p := "wallets/" + walletId + "/transactions";
    assert p[..|"wallets/" + walletId|] == "wallets/" + walletId;
    assert p[|p| - |"/transactions"|..] == "/transactions";
    assert p[|"wallets/"|..|p| - |"/transactions"|] == walletId;
    p
  }

  /** `Cancel`: DELETE one transaction of the wallet. */
  function CancelRequest(walletId: string, transactionId: string): (r: P.Request)
    ensures StartsWith(r.parameter, Collection(walletId) + "/")
    ensures r.parameter[|Collection(walletId)| + 1..] == transactionId
    ensures r.verb == P.Delete
  {
    var p := Collection(walletId) + "/" + transactionId;
    assert p[..|Collection(walletId)| + 1] == Collection(walletId) + "/";
    P.Request(p, P.Delete)
  }

  /** `Get`: GET the transaction that `Cancel` would delete. */
  function GetRequest(walletId: string, transactionId: string): (r: P.Request)
    ensures r.parameter == CancelRequest(walletId, transactionId).parameter
    ensures r.verb == P.Get
  {
    P.Request(Collection(walletId) + "/" + transactionId, P.Get)
  }

  /** `Estimate`: POST the serialised draft to the wallet's fee endpoint. */
  function EstimateRequest(walletId: string, draft: Draft, serialize: Draft -> string): (r: P.Request)
    ensures StartsWith(r.parameter, "wallets/" + walletId) && EndsWith(r.parameter, "/payment-fees")
    ensures |r.parameter| == |"wallets/"| + |walletId| + |"/payment-fees"|
    ensures r.parameter[|"wallets/"|..|r.parameter| - |"/payment-fees"|] == walletId
    ensures r.verb == P.Post(serialize(draft))
  {
    var p := "wallets/" + walletId + "/payment-fees";
    assert p[..|"wallets/" + walletId|] == "wallets/" + walletId;
    assert p[|p| - |"/payment-fees"|..] == "/payment-fees";
    assert p[|"wallets/"|..|p| - |"/payment-fees"|] == walletId;
    P.Request(p, P.Post(serialize(draft)))
  }

  /** `Send`: POST the serialised draft to the wallet's transactions. */
  function SendRequest(walletId: string, draft: Draft, serialize: Draft -> string): (r: P.Request)
    ensures r.parameter == Collection(walletId)
    ensures r.verb == P.Post(serialize(draft))
  {
    P.Request(Collection(walletId), P.Post(serialize(draft)))
  }

  /** The query of `List`, as written: note `"&end"` has no `'='`, and the
      minimum withdrawal is sent only when it is at least one. The two
      dates arrive already formatted by `ToDateISO8601`. */
  function ListQuery(startIso: string, endIso: string, order: string, minWithdrawal: Int32): (q: string)
    ensures StartsWith(q, "start=" + startIso + "&end" + endIso + "&order=" + order)
    ensures minWithdrawal < 1 ==> q == "start=" + startIso + "&end" + endIso + "&order=" + order
    ensures minWithdrawal >= 1 ==> EndsWith(q, "&minWithdrawal=" + DecimalString(minWithdrawal))
    ensures minWithdrawal >= 1 ==>
      |q| == |"start=" + startIso + "&end" + endIso + "&order=" + order|
             + |"&minWithdrawal=" + DecimalString(minWithdrawal)|
  {
    var head := "start=" + startIso + "&end" + endIso + "&order=" + order;
    var tail := if minWithdrawal >= 1 then "&minWithdrawal=" + DecimalString(minWithdrawal) else "";
    var q := head + tail;
    assert q[..|head|] == head;
    assert q[|q| - |tail|..] == tail;
    q
  }

  /** `List`: GET the wallet's transactions (the `Send` target) with the
      period query as written. */
  function ListRequest(walletId: string, startIso: string, endIso: string, order: string,
                       minWithdrawal: Int32): (r: P.Request)
    ensures r.parameter == Collection(walletId)
    ensures r.verb.GetQuery? && StartsWith(r.verb.query, "start=" + startIso + "&end" + endIso)
    ensures r.verb == P.GetQuery(ListQuery(startIso, endIso, order, minWithdrawal))
  {
    var q := ListQuery(startIso, endIso, order, minWithdrawal);
    var head := "start=" + startIso + "&end" + endIso;
    assert q[..|head|] == (q[..|head + "&order=" + order|])[..|head|];
    P.Request(Collection(walletId), P.GetQuery(q))
  }

  /** The `'&'`-separated fields of `List`'s query as written: the second
      one is `"end"` glued to the end date. */
  function ListFields(startIso: string, endIso: string, order: string, minWithdrawal: Int32): seq<string>
  {
    ["start=" + startIso, "end" + endIso, "order=" + order]
      + (if minWithdrawal >= 1 then ["minWithdrawal=" + DecimalString(minWithdrawal)] else [])
  }

  /** The as-written query is its fields joined with `'&'`. */
  lemma ListQueryIsJoin(startIso: string, endIso: string, order: string, minWithdrawal: Int32)
    ensures ListQuery(startIso, endIso, order, minWithdrawal) == Join(ListFields(startIso, endIso, order, minWithdrawal), '&')
  {
    var a, b, c := "start=" + startIso, "end" + endIso, "order=" + order;
    assert "&end" == "&" + "end";
    assert "&order=" == "&" + "order=";
    if minWithdrawal >= 1 {
      var m := "minWithdrawal=" + DecimalString(minWithdrawal);
      var head := "start=" + startIso + "&end" + endIso + "&order=" + order;
      assert head == a + "&" + b + "&" + c;
      assert "&minWithdrawal=" + DecimalString(minWithdrawal) == "&" + m;
      assert ListQuery(startIso, endIso, order, minWithdrawal) == head + ("&" + m);
      assert [a, b, c] + [m] == [a, b, c, m];
      JoinFour(a, b, c, m, '&');
    } else {
      assert [a, b, c] + [] == [a, b, c];
      JoinThree(a, b, c, '&');
    }
  }

  /** Splitting the as-written query on `'&'` gives exactly its fields: the
      minimum withdrawal field appears exactly when it is at least one. */
  lemma ListQueryFields(startIso: string, endIso: string, order: string, minWithdrawal: Int32)
    requires '&' !in startIso && '&' !in endIso && '&' !in order
    ensures Split(ListQuery(startIso, endIso, order, minWithdrawal), '&') == ListFields(startIso, endIso, order, minWithdrawal)
    ensures |ListFields(startIso, endIso, order, minWithdrawal)| == (if minWithdrawal >= 1 then 4 else 3)
  {
    var fields := ListFields(startIso, endIso, order, minWithdrawal);
    if minWithdrawal >= 1 {
      DecimalRoundTrip(minWithdrawal);
      assert '&' !in DecimalString(minWithdrawal);
    }
    assert forall i :: 0 <= i < |fields| ==> '&' !in fields[i];
    ListQueryIsJoin(startIso, endIso, order, minWithdrawal);
    SplitJoin(fields, '&');
  }

  /** The missing `'='`: for any dates free of `'&'` and `'='` the end-date
      field has no value separator, so the service cannot read an `end`
      parameter from it. */
  lemma ListQueryEndHasNoSeparator(startIso: string, endIso: string, order: string, minWithdrawal: Int32)
    requires '&' !in startIso && '&' !in endIso && '&' !in order && '=' !in endIso
    ensures |Split(ListQuery(startIso, endIso, order, minWithdrawal), '&')| > 1
    ensures '=' !in Split(ListQuery(startIso, endIso, order, minWithdrawal), '&')[1]
  {
    ListQueryFields(startIso, endIso, order, minWithdrawal);
    assert "end"[0] == 'e' && "end"[1] == 'n' && "end"[2] == 'd';
  }

  /** The evidently intended query, with `"&end="`. */
  function IntendedListQuery(startIso: string, endIso: string, order: string, minWithdrawal: Int32): (q: string)
    ensures StartsWith(q, "start=" + startIso + "&end=" + endIso + "&order=" + order)
  {
    var head := "start=" + startIso + "&end=" + endIso + "&order=" + order;
    var q := head + (if minWithdrawal >= 1 then "&minWithdrawal=" + DecimalString(minWithdrawal) else "");
    assert q[..|head|] == head;
    q
  }

  /** The `name=value` pairs of the intended query. */
  function IntendedFields(startIso: string, endIso: string, order: string, minWithdrawal: Int32): seq<string>
  {
    ["start=" + startIso, "end=" + endIso, "order=" + order]
      + (if minWithdrawal >= 1 then ["minWithdrawal=" + DecimalString(minWithdrawal)] else [])
  }

  lemma IntendedListQueryIsJoin(startIso: string, endIso: string, order: string, minWithdrawal: Int32)
    ensures IntendedListQuery(startIso, endIso, order, minWithdrawal)
            == Join(IntendedFields(startIso, endIso, order, minWithdrawal), '&')
  {
    var a, b, c := "start=" + startIso, "end=" + endIso, "order=" + order;
    assert "&end=" == "&" + "end=";
    assert "&order=" == "&" + "order=";
    if minWithdrawal >= 1 {
      var m := "minWithdrawal=" + DecimalString(minWithdrawal);
      var head := "start=" + startIso + "&end=" + endIso + "&order=" + order;
      assert head == a + "&" + b + "&" + c;
      assert "&minWithdrawal=" + DecimalString(minWithdrawal) == "&" + m;
      assert IntendedListQuery(startIso, endIso, order, minWithdrawal) == head + ("&" + m);
      assert [a, b, c] + [m] == [a, b, c, m];
      JoinFour(a, b, c, m, '&');
    } else {
      assert [a, b, c] + [] == [a, b, c];
      JoinThree(a, b, c, '&');
    }
  }

  /** Every field of the intended query is `name=value`: splitting it on
      `'&'` and then on `'='` recovers the names and the given values, and
      the minimum withdrawal reads back as the number sent. */
  lemma IntendedListQueryFields(startIso: string, endIso: string, order: string, minWithdrawal: Int32)
    requires '&' !in startIso && '&' !in endIso && '&' !in order
    requires '=' !in startIso && '=' !in endIso && '=' !in order
    ensures var fields := Split(IntendedListQuery(startIso, endIso, order, minWithdrawal), '&');
      && |fields| == (if minWithdrawal >= 1 then 4 else 3)
      && Split(fields[0], '=') == ["start", startIso]
      && Split(fields[1], '=') == ["end", endIso]
      && Split(fields[2], '=') == ["order", order]
      && (minWithdrawal >= 1 ==>
            Split(fields[3], '=') == ["minWithdrawal", DecimalString(minWithdrawal)]
            && DecimalValue(Split(fields[3], '=')[1]) == minWithdrawal)
  {
    var fields := IntendedFields(startIso, endIso, order, minWithdrawal);
    if minWithdrawal >= 1 {
      var digits := DecimalString(minWithdrawal);
      DecimalRoundTrip(minWithdrawal);
      assert '&' !in digits && '=' !in digits;
      assert "minWithdrawal=" == "minWithdrawal" + "=";
      NameValue("minWithdrawal", digits);
    }
    assert forall i :: 0 <= i < |fields| ==> '&' !in fields[i];
    IntendedListQueryIsJoin(startIso, endIso, order, minWithdrawal);
    SplitJoin(fields, '&');
    assert "start=" == "start" + "=" && "end=" == "end" + "=" && "order=" == "order" + "=";
    NameValue("start", startIso);
    NameValue("end", endIso);
    NameValue("order", order);
  }

  /** The evidently intended `List` request: the same target, with the
      corrected query, whose second field names `end` and carries the end
      date. */
  function IntendedListRequest(walletId: string, startIso: string, endIso: string, order: string,
                               minWithdrawal: Int32): (r: P.Request)
    ensures r.parameter == ListRequest(walletId, startIso, endIso, order, minWithdrawal).parameter
    ensures r.verb == P.GetQuery(IntendedListQuery(startIso, endIso, order, minWithdrawal))
    ensures '&' !in startIso && '&' !in endIso && '&' !in order
            && '=' !in startIso && '=' !in endIso && '=' !in order ==>
      |Split(r.verb.query, '&')| > 1 && Split(Split(r.verb.query, '&')[1], '=') == ["end", endIso]
  {
    var q := IntendedListQuery(startIso, endIso, order, minWithdrawal);
    assert '&' !in startIso && '&' !in endIso && '&' !in order
           && '=' !in startIso && '=' !in endIso && '=' !in order ==>
      |Split(q, '&')| > 1 && Split(Split(q, '&')[1], '=') == ["end", endIso] by {
      if '&' !in startIso && '&' !in endIso && '&' !in order
         && '=' !in startIso && '=' !in endIso && '=' !in order {
        IntendedListQueryFields(startIso, endIso, order, minWithdrawal);
      }
    }
    P.Request(Collection(walletId), P.GetQuery(q))
  }

  lemma NameValue(name: string, value: string)
    requires '=' !in name && '=' !in value
    ensures Split(name + "=" + value, '=') == [name, value]
  {
    SplitAfterField(name, value, '=');
    SplitWithoutDelimiter(value, '=');
  }

  /** `Cancel` end to end, decoded by `Protocol.ErrorOnly`: an accepted
      cancellation reports the success error; a rejected one (a transaction
      no longer pending, say) reports the error its body parses to, and the
      failure text echoes no payload. */
  lemma CancelReportsOutcome(walletId: string, transactionId: string, resp: P.Response,
                             parseError: string -> P.Json<Error>, e: Error)
    requires resp.Answered?
    requires resp.isSuccess ==> !StartsWith(resp.body, P.ErrorFlag)
    requires !resp.isSuccess ==>
      P.Delimiter !in resp.status && P.Delimiter !in resp.body && parseError(resp.body) == P.Parsed(e)
    ensures P.Exchange(CancelRequest(walletId, transactionId).verb, resp, raw => P.ErrorOnly(raw, parseError))
            == Returned(Some(if resp.isSuccess then P.SuccessError else e))
    ensures !resp.isSuccess ==>
      Split(P.Call(CancelRequest(walletId, transactionId).verb, resp).value, P.Delimiter)[3] == P.NoPayload
  {
    if !resp.isSuccess {
      P.ClassifyEnvelope(resp.status, resp.body, P.Payload(P.Delete));
      assert P.Delimiter !in P.NoPayload;
      P.FailedCallFields(P.Delete, resp);
    }
  }

  /** The decoding of `Estimate`: on a flagged result a fresh fee record
      carrying only the error; otherwise the deserialised fee with the
      success error. */
  function DecodeFee(raw: string, parseError: string -> P.Json<Error>,
                     parseFee: string -> P.Json<Fee>): (r: Run<Fee>)
    ensures var o := P.Decode(raw, parseError, parseFee);
      && (o.Failure? ==> r == Returned(Fee(None, None, None, o.error)))
      && (o.Success? && o.value.Some? ==> r == Returned(o.value.value.(error := Some(P.SuccessError))))
      && (r.Threw? <==> o.Fault? || o == P.Success(None))
  {
    P.ObjectShape(P.Decode(raw, parseError, parseFee), NewFee(), (f: Fee) => f,
                  (f: Fee, e: Option<Error>) => f.(error := e))
  }

  /** The decoding shared by `Get` and `Send`: on a flagged result a fresh
      record (depth zero blocks) carrying only the error; otherwise the
      deserialised transaction with the success error. */
  function DecodeInformation(raw: string, parseError: string -> P.Json<Error>,
                             parseInformation: string -> P.Json<Information>): (r: Run<Information>)
    ensures var o := P.Decode(raw, parseError, parseInformation);
      && (o.Failure? ==> r == Returned(NewInformation().(error := o.error)))
      && (o.Success? && o.value.Some? ==> r == Returned(o.value.value.(error := Some(P.SuccessError))))
      && (r.Threw? <==> o.Fault? || o == P.Success(None))
    ensures StartsWith(raw, P.ErrorFlag) && r.Returned? ==>
      r.value.id == None && r.value.depth == Height(0, "block")
  {
    P.ObjectShape(P.Decode(raw, parseError, parseInformation), NewInformation(), (t: Information) => t,
                  (t: Information, e: Option<Error>) => t.(error := e))
  }

  /** The decoding of `List`: on a flagged result the array stays `null`;
      otherwise it is the deserialised array with the success error. */
  function DecodeTransactionList(raw: string, parseError: string -> P.Json<Error>,
                                 parseList: string -> P.Json<seq<Information>>): (r: Run<TransactionList>)
    ensures StartsWith(raw, P.ErrorFlag) && r.Returned? ==> r.value.information == None
    ensures var o := P.Decode(raw, parseError, parseList);
      && (o.Failure? ==> r == Returned(TransactionList(None, o.error)))
      && (o.Success? ==> r == Returned(TransactionList(o.value, Some(P.SuccessError))))
      && (r.Threw? <==> o.Fault?)
  {
    P.ListShape(P.Decode(raw, parseError, parseList), NewTransactionList(),
                (l: TransactionList, xs: Option<seq<Information>>) => l.(information := xs),
                (l: TransactionList, e: Option<Error>) => l.(error := e))
  }
}

=== FILE: wallets.dfy ===
/**
  `WalletAPI.Wallet`: create, delete, look up and list wallets, and read one
  balance. Each operation is its request (the `UrlBuilder` parameter and the
  method) and its decoding of the client's raw result.
 */
module Wallets {
  import opened Common
  import opened Strings
  import opened Data
  import Tools
  import Api
  import P = Protocol

  const Collection: string := "wallets"

  /** `Create`: POST the serialised options to `"wallets"`. */
  function CreateRequest(options: WalletOptions, serialize: WalletOptions -> string): (r: P.Request)
    ensures r.parameter == Collection
    ensures r.verb.Post? && r.verb.json == serialize(options)
  {
    P.Request(Collection, P.Post(serialize(options)))
  }

  /** `Delete`: DELETE `"wallets/" + id`. */
  function DeleteRequest(walletId: string): (r: P.Request)
    ensures StartsWith(r.parameter, Collection + "/") && r.parameter[|Collection| + 1..] == walletId
    ensures r.verb == P.Delete
  {
    var p := Collection + "/" + walletId;
    assert p[..|Collection| + 1] == Collection + "/";
    P.Request(p, P.Delete)
  }

  /** `Get`: GET `"wallets/" + id`, the same target as `Delete`. */
  function GetRequest(walletId: string): (r: P.Request)
    ensures r.parameter == DeleteRequest(walletId).parameter
    ensures r.verb == P.Get
  {
    P.Request(Collection + "/" + walletId, P.Get)
  }

  /** `List`: GET `"wallets/"`, with a trailing slash unlike `Create`. */
  function ListRequest(): (r: P.Request)
    ensures r.parameter == Collection + "/"
    ensures r.verb == P.Get
  {
    P.Request(Collection + "/", P.Get)
  }

  /** The decoding shared by `Create` and `Get`: on a flagged result a fresh
      wallet carrying only the error; otherwise the deserialised wallet with
      the success error attached. */
  function DecodeWallet(raw: string, parseError: string -> P.Json<Error>,
                        parseWallet: string -> P.Json<Wallet>): (r: Run<Wallet>)
    ensures var o := P.Decode(raw, parseError, parseWallet);
      && (o.Failure? ==> r == Returned(NewWallet().(error := o.error)))
      && (o.Success? && o.value.Some? ==> r == Returned(o.value.value.(error := Some(P.SuccessError))))
      && (r.Threw? <==> o.Fault? || o == P.Success(None))
  {
    P.ObjectShape(P.Decode(raw, parseError, parseWallet), NewWallet(), (w: Wallet) => w,
                  (w: Wallet, e: Option<Error>) => w.(error := e))
  }

  /** The decoding of `List`: on a flagged result the list stays `null`;
      otherwise it is the deserialised array. */
  function DecodeWalletList(raw: string, parseError: string -> P.Json<Error>,
                            parseWallets: string -> P.Json<seq<Wallet>>): (r: Run<WalletList>)
    ensures StartsWith(raw, P.ErrorFlag) && r.Returned? ==> r.value.wallets == None
    ensures var o := P.Decode(raw, parseError, parseWallets);
      && (o.Failure? ==> r == Returned(WalletList(None, o.error)))
      && (o.Success? ==> r == Returned(WalletList(o.value, Some(P.SuccessError))))
      && (r.Threw? <==> o.Fault?)
  {
    P.ListShape(P.Decode(raw, parseError, parseWallets), NewWalletList(),
                (l: WalletList, ws: Option<seq<Wallet>>) => l.(wallets := ws),
                (l: WalletList, e: Option<Error>) => l.(error := e))
  }

  /** `Delete` end to end, decoded by `Protocol.ErrorOnly`: an accepted
      deletion reports the success error whatever its body (which is never
      deserialised, as long as it does not begin with the flag); a rejected
      one reports the error its body parses to. */
  lemma DeleteReportsOutcome(walletId: string, resp: P.Response,
                             parseError: string -> P.Json<Error>, e: Error)
    requires resp.Answered?
    requires resp.isSuccess ==> !StartsWith(resp.body, P.ErrorFlag)
    requires !resp.isSuccess ==>
      P.Delimiter !in resp.status && P.Delimiter !in resp.body && parseError(resp.body) == P.Parsed(e)
    ensures P.Exchange(DeleteRequest(walletId).verb, resp, raw => P.ErrorOnly(raw, parseError))
            == Returned(Some(if resp.isSuccess then P.SuccessError else e))
  {
    if !resp.isSuccess {
      P.ClassifyEnvelope(resp.status, resp.body, P.Payload(P.Delete));
    }
  }

  /** The selected balance of `Balance`: `Available`, `Rewards`, anything
      else the total. */
  function Select(b: Balance, which: Balances): (d: Option<Denomination>)
    ensures which == Available ==> d == b.available
    ensures which == Rewards ==> d == b.reward
    ensures which == Total ==> d == b.total
  {
    if which == Available then b.available
    else if which == Rewards then b.reward
    else b.total
  }

  /** `Balance(walletID, balances)` on the raw result of its `Get`: zero
      whenever the wallet's error code is not the success marker, otherwise
      the selected quantity in ADA. Dereferencing a `null` error, balance or
      denomination throws. */
  function Balance(raw: string, which: Balances, parseError: string -> P.Json<Error>,
                   parseWallet: string -> P.Json<Wallet>): (r: Run<real>)
    ensures P.Classify(raw).Flagged? && parseError(P.Classify(raw).errorField).Parsed?
            && parseError(P.Classify(raw).errorField).value.code != P.SuccessFlag
            ==> r == Returned(0.0)
    // a `null` error object: reading its code dereferences `null`
    ensures P.Classify(raw).Flagged? && parseError(P.Classify(raw).errorField).Null? ==> r.Threw?
    // an unreadable error object
    ensures P.Classify(raw).Flagged? && parseError(P.Classify(raw).errorField).Invalid? ==> r.Threw?
    // a flagged error with the success code: the fresh wallet has no balance
    ensures P.Classify(raw).Flagged? && parseError(P.Classify(raw).errorField).Parsed?
            && parseError(P.Classify(raw).errorField).value.code == P.SuccessFlag
            ==> r.Threw?
    // a flagged text with no field 2
    ensures P.Classify(raw).Truncated? ==> r.Threw?
    // a `null` or unreadable wallet
    ensures !StartsWith(raw, P.ErrorFlag) && !parseWallet(raw).Parsed? ==> r.Threw?
    // a `null` balance or selected denomination
    ensures !StartsWith(raw, P.ErrorFlag) && parseWallet(raw).Parsed?
            && (parseWallet(raw).value.balance.None?
                || Select(parseWallet(raw).value.balance.value, which).None?)
            ==> r.Threw?
    ensures DecodeWallet(raw, parseError, parseWallet).Threw? ==> r.Threw?
    ensures !StartsWith(raw, P.ErrorFlag) && parseWallet(raw).Parsed?
            && parseWallet(raw).value.balance.Some?
            && Select(parseWallet(raw).value.balance.value, which).Some?
            ==> r == Returned(Tools.ToAda(Select(parseWallet(raw).value.balance.value, which).value.quantity))
    ensures r.Returned? && r.value != 0.0 ==>
      && DecodeWallet(raw, parseError, parseWallet).Returned?
      && DecodeWallet(raw, parseError, parseWallet).value.error.Some?
      && DecodeWallet(raw, parseError, parseWallet).value.error.value.code == P.SuccessFlag
  {
    match DecodeWallet(raw, parseError, parseWallet)
    case Threw => Threw
    case Returned(w) =>
      match w.error
      case None => Threw
      case Some(e) =>
        if e.code != P.SuccessFlag then Returned(0.0)
        else
          match w.balance
          case None => Threw
          case Some(bal) =>
            match Select(bal, which)
            case None => Threw
            case Some(d) => Returned(d.quantity as real / 1000000.0)
  }

  /** End to end: when the service rejects the lookup with an error whose
      code is not the success marker, the balance is zero. */
  lemma BalanceOfRejectedLookup(walletId: string, resp: P.Response, which: Balances,
                                parseError: string -> P.Json<Error>,
                                parseWallet: string -> P.Json<Wallet>, e: Error)
    requires resp.Answered? && !resp.isSuccess
    requires P.Delimiter !in resp.status && P.Delimiter !in resp.body
    requires parseError(resp.body) == P.Parsed(e) && e.code != P.SuccessFlag
    ensures P.Exchange(GetRequest(walletId).verb, resp,
                       raw => Balance(raw, which, parseError, parseWallet)) == Returned(0.0)
  {
    P.ClassifyEnvelope(resp.status, resp.body, P.Payload(P.Get));
  }

  /** The balance of a wallet whose lookup cannot reach the service. The
      method's documentation promises zero on a network error, but the
      transport exception of the lookup's `Wait` propagates out of
      `Balance`. */
  lemma BalanceOfUnreachableService(walletId: string, which: Balances,
                                    parseError: string -> P.Json<Error>,
                                    parseWallet: string -> P.Json<Wallet>)
    ensures P.Exchange(GetRequest(walletId).verb, P.Unreachable,
                       raw => Balance(raw, which, parseError, parseWallet)).Threw?
    ensures P.Exchange(GetRequest(walletId).verb, P.Unreachable,
                       raw => Balance(raw, which, parseError, parseWallet)) != Returned(0.0)
  {
  }

  /** The accumulation of `UrlBuilder` on a concrete session: after the
      service is configured at `http://127.0.0.1:8090/` and wallet `w1` is
      looked up, the wallet list request goes to the lookup's URL with
      `"wallets/"` appended, `.../v2/wallets/w1wallets/`. */
  lemma ListAfterGetRepeatsPath()
    ensures var g := Api.Construct(Api.Initial, "http://127.0.0.1:8090/");
            var afterGet := Api.Prepare(g, GetRequest("w1").parameter);
            && afterGet.clientUrl == "http://127.0.0.1:8090/" + "v2/" + "wallets/w1"
            && Api.Prepare(afterGet, ListRequest().parameter).clientUrl
                 == "http://127.0.0.1:8090/" + "v2/" + "wallets/w1" + "wallets/"
  {
    var host := "http://127.0.0.1:8090/";
    var g := Api.Construct(Api.Initial, host);
    assert host[|host| - 1..] == "/";
    assert host[|host| - 3..] == "90/";
    assert g.baseUrl == host + Api.Version;
    assert GetRequest("w1").parameter == "wallets/w1";
    assert ListRequest().parameter == "wallets/";
  }
}
